=== FILE: README.md ===
# icosa: a verified model of the frame pipeline

icosa draws a bouncing tetrakis hexahedron (a cube with a pyramid on each
face) as a wireframe over a checkerboard floor, in a terminal. The shape is
drawn into a framebuffer of braille dots: each character cell holds 2 x 4
dots in one byte, and that byte is shown as the glyph U+2800 + byte. Each
frame is encoded as one byte string of ANSI escapes and UTF-8 glyphs.

This project models the integer core of that pipeline in Dafny:

- the framebuffer with `fb_clear` and `fb_set`, and the dot table (module
  `Braille`, class `Braille.Framebuffer`);
- the Bresenham line rasteriser `draw_line` (module `Raster`);
- the floor map `compute_floor` (module `Floor`);
- the encoder `put_str` and `render` (module `Encoder`), writing into an
  `rbuf` array;
- the vertex and edge tables (module `Topology`).

Two further modules state what a frame means:

- `FrameShape` covers the frame's byte layout: home first, one line feed
  between rows, a colour reset at the end of every row.
- `Terminal` is a small reader of the control sequences the frame uses. It
  shows that every cell ends up on screen with its glyph in its mode's
  colours, although `render` writes a colour escape only where the mode
  changes.

`Utf8` holds the three-byte encoder and a strict decoder. `Grid` holds the
row-major index arithmetic that the other modules share.

The imperative parts of the source are imperative here. `fb`, `floor_map`
and `rbuf` are arrays; `draw_line`, `compute_floor`, `put_str` and `render`
are methods with loops. Each method is proved against a function on
values:

- `Braille.Plot` and `Braille.PlotAll` specify plotting;
- `Raster.LinePoints` specifies the points a line plots;
- `Floor.Layout` specifies the floor map;
- `Encoder.Frame` specifies the frame's bytes.

The properties are then proved about those functions.

`compute_floor` starts its row loop at `horizon + 1` (icosa.c:93), so the
horizon row itself stays sky (`Floor.LayoutRows`).

## Model

| member | source | states |
|---|---|---|
| Braille.DotBit | icosa.c:68-71 | the `bits` table: column 0, rows 0 to 3, gives 0x01, 0x02, 0x04, 0x40; column 1 gives 0x08, 0x10, 0x20, 0x80 (its properties are the next two rows) |
| Braille.DotBitsPartitionTheByte | icosa.c:68-71 | each of the 8 entries of `bits` is a single nonzero bit, no two entries share a bit, and together they OR to 0xFF |
| Braille.DotBitIsUnicodeDot | icosa.c:68-71 | the entry for column c, row r is the bit of the Unicode braille dot number at that position (dots 1-3 and 7 on the left, 4-6 and 8 on the right) |
| Braille.CellOf | icosa.c:72 | the cell index `(y/4)*cw + x/2` of an in-bounds pixel lies inside the cw x ch buffer |
| Braille.Plot | icosa.c:66-73 | fb_set on the buffer's contents: the buffer keeps its cw*ch cells; `PlotLights`, `PlotKeepsOthers` and `PlotIdempotent` state what it does to them |
| Braille.Framebuffer.constructor | icosa.c:197 | the buffer is allocated with cw*ch cells, all zero (calloc) |
| Braille.Framebuffer.Clear | icosa.c:64 | fb_clear sets every cell to 0 |
| Braille.Framebuffer.Set | icosa.c:66-73 | an off-screen pixel leaves the buffer unchanged; an on-screen pixel ORs its dot bit into its own cell and changes no other cell; the result is `Plot` of the old contents |
| Braille.PlotLights | icosa.c:66-73 | after fb_set(x, y) pixel (x, y) is lit exactly when it is on screen |
| Braille.DistinctPixelsDistinctDots | icosa.c:67-72 | two different on-screen pixels never share both cell and dot bit |
| Braille.PlotKeepsOthers | icosa.c:72 | fb_set(x, y) does not change whether any other pixel is lit |
| Braille.PlotKeepsOtherBits | icosa.c:72 | fb_set leaves the bit of every other pixel in its cell as it was |
| Braille.PlotIdempotent | icosa.c:66-73 | fb_set twice on the same pixel equals fb_set once |
| Braille.PlotAll | icosa.c:80 | a sequence of fb_set calls, first point first; the buffer keeps its size |
| Braille.PlotAllLit | icosa.c:66-73 | after a sequence of fb_set calls a pixel is lit exactly when it was lit before or is one of the on-screen plotted points |
| Braille.ClearedIsDark | icosa.c:64 | after fb_clear no pixel is lit |
| Raster.Abs | icosa.c:76-77 | `abs`: non-negative and equal to n or -n |
| Raster.Segment.At | icosa.c:76-84 | after i x-steps and j y-steps the point is i columns and j rows from (x0, y0), each step going toward (x1, y1): while i <= dx it is dx - i columns from x1, and likewise for rows |
| Raster.Segment.Err | icosa.c:78-84 | err starts at dx + dy and each x-step adds dy, each y-step dx; `ErrClosed` gives its closed form |
| Raster.Segment.Next | icosa.c:82-84 | the walk position after one iteration: an x-step when e2 >= dy, a y-step when e2 <= dx; `Progress` and `BalancedStep` state what it achieves |
| Raster.ErrClosed | icosa.c:78-84 | after i x-steps and j y-steps the error term is dx*(1+j) + dy*(1+i) |
| Raster.ErrStep | icosa.c:83-84 | an x-step adds dy to err, a y-step adds dx |
| Raster.AtTarget | icosa.c:81 | the loop exits exactly when dx x-steps and \|dy\| y-steps have been taken |
| Raster.Progress | icosa.c:82-84 | away from the target every iteration steps at least one coordinate and never steps past the target on either axis; with the `decreases` of `Walk` and `DrawLine` this is termination |
| Raster.NoStepPastX | icosa.c:83 | on the target column with y still to go, `e2 >= dy` is false |
| Raster.NoStepPastY | icosa.c:84 | on the target row with x still to go, `e2 <= dx` is false |
| Raster.Walk | icosa.c:79-85 | the points plotted from a walk position on start at that position and end at (x1, y1) |
| Raster.LinePoints | icosa.c:75-86 | the first point plotted is (x0, y0) and the last is (x1, y1) |
| Raster.BalancedAtStart | icosa.c:76-78 | the walk starts in the balanced state |
| Raster.DiagonalStepsY | icosa.c:84 | when \|dx\| > \|dy\| and both remaining distances are equal, a y-step is due |
| Raster.DiagonalStepsX | icosa.c:83 | when \|dy\| > \|dx\| and both remaining distances are equal, an x-step is due |
| Raster.BalancedStep | icosa.c:82-84 | each iteration keeps the walk balanced and shortens the longer remaining distance by exactly one |
| Raster.WalkLength | icosa.c:79-85 | from a balanced position the walk plots max(remaining dx, remaining \|dy\|) + 1 points |
| Raster.LinePointCount | icosa.c:75-86 | draw_line plots exactly max(\|x1-x0\|, \|y1-y0\|) + 1 points |
| Raster.WalkSteps | icosa.c:82-84 | consecutive points of a walk differ and each coordinate moves by at most one, toward the target |
| Raster.LineSteps | icosa.c:75-86 | consecutive plotted points are 8-connected and move toward (x1, y1) |
| Raster.SinglePoint | icosa.c:79-81 | a zero-length segment plots its one point |
| Raster.HorizontalWalk | icosa.c:79-85 | a left-to-right horizontal walk from step i plots x0+i, .., x1 on row y0 |
| Raster.HorizontalLine | icosa.c:75-86 | draw_line(x0, y, x1, y) with x0 <= x1 plots x0..x1 on row y, x1 - x0 + 1 points |
| Raster.LoopStep | icosa.c:80-84 | one iteration away from the target plots the current point and moves the walk to its next position |
| Raster.LastStep | icosa.c:80-81 | at the target the last fb_set is the last plot |
| Raster.DrawLine | icosa.c:75-86 | the buffer afterwards is the old buffer with `LinePoints` plotted in order through fb_set |
| Raster.Advance | icosa.c:82-84 | with e2 = 2*err, the two guarded updates move x, y and err to the walk's next position |
| Raster.DrawnLineLit | icosa.c:75-86 | after draw_line a pixel is lit exactly when it was lit before or is an on-screen point of the segment |
| Floor.Horizon | icosa.c:90 | horizon = ch*55/100, the floor of 0.55*ch; it is a row of the screen when ch >= 1 and has a row below it when ch >= 3 |
| Floor.FloorClass | icosa.c:89-100 | a cell's class is 0, 1 or 2, and 0 (sky) exactly on rows 0..horizon |
| Floor.Layout | icosa.c:88-103 | the map has cw*ch entries |
| Floor.LayoutCell | icosa.c:100 | a cell below the horizon holds 1 for odd tile parity and 2 for even |
| Floor.LayoutRows | icosa.c:89-100 | every cell in rows 0..horizon is 0 (sky); every cell below is 1 or 2 |
| Floor.LayoutValues | icosa.c:45 | every value of the map is 0, 1 or 2 |
| Floor.FillOne | icosa.c:100 | writing the next cell moves the filled boundary on by one |
| Floor.SkyFilled | icosa.c:89-93 | the zeroed map already holds the final sky rows 0..horizon |
| Floor.Allocate | icosa.c:89 | the calloc'd map is fresh and all zero, which already matches the final map on rows 0..horizon |
| Floor.FillRow | icosa.c:94-101 | the inner loop fills one row below the horizon with its tile classes, moving the filled boundary to the next row |
| Floor.AllFilled | icosa.c:93 | once the row loop passes ch the map is complete |
| Floor.ComputeFloor | icosa.c:88-103 | returns a fresh map equal to `Layout` and the horizon `Horizon(ch)` |
| Utf8.Encode3 | icosa.c:132-134 | three bytes: lead 1110xxxx, then two 10xxxxxx continuation bytes |
| Utf8.Decode3 | icosa.c:131-134 | whatever the strict decoder accepts is three bytes holding a three-byte scalar value |
| Utf8.DecodeEncode | icosa.c:131-134 | decoding the encoding of any three-byte scalar value gives it back |
| Utf8.EncodeDecode | icosa.c:131-134 | the decoder accepts only canonical encodings |
| Utf8.BrailleCodePoint | icosa.c:131 | 0x2800 + fb[idx] is in U+2800..U+28FF and encodes in three bytes |
| Utf8.BrailleBytes | icosa.c:131-134 | the glyph of byte b is E2, A0\|(b>>6), 80\|(b&3F), and it decodes back to U+2800+b |
| Encoder.CellMode | icosa.c:118 | mode is 3 exactly when a dot is lit (or the floor value is 3); otherwise it is the floor value |
| Encoder.ModeEscape | icosa.c:121-126 | modes 0..3 have an escape of at most 11 bytes; any other mode writes nothing |
| Encoder.Glyph | icosa.c:130-137 | an empty cell is the single byte space; a lit cell takes three bytes |
| Encoder.GlyphBytes | icosa.c:131-134 | a lit cell's glyph is exactly the bytes E2, A0 \| (cell >> 6), 80 \| (cell & 3F) |
| Encoder.Scene.Index | icosa.c:117 | the row-major index `y*cw + x` of a cell lies inside the cw*ch buffer |
| Encoder.CellBytes | icosa.c:117-137 | a cell takes at most 14 bytes |
| Encoder.CellsFrom | icosa.c:116-138 | cells x.. of a row take at most 14 bytes each |
| Encoder.Emit | icosa.c:116-128 | render's inner loop with `prev`: a mode's escape is written only when it differs from prev; `EmitIsCells` states which cells that escapes |
| Encoder.EmitIsCells | icosa.c:114-128 | the loop with `prev` writes an escape exactly where `Escaped` says: on the first cell of every row and wherever the mode differs from the left neighbour's |
| Encoder.RowBytes | icosa.c:115-142 | a row takes at most 14*cw + 5 bytes |
| Encoder.RowsLength | icosa.c:115-142 | rows y.. take at most (ch - y)*(14*cw + 5) bytes |
| Encoder.RowsFrom | icosa.c:115-142 | rows y.. of the frame, one `RowBytes` after the other; `RowsLength` bounds it |
| Encoder.Frame | icosa.c:110-142 | the whole frame: ESC [ H, then every row; `FrameStartsHome`, `FrameNewlines`, `FrameEndsReset`, `FrameFits` and `Terminal.FrameDisplays` state its properties |
| Encoder.Capacity | icosa.c:198 | the rbuf size ch*(cw*20+16)+64; `FrameFits` shows every frame fits |
| Encoder.FrameFits | icosa.c:198 | the frame always fits in the ch*(cw*20+16)+64 bytes rbuf is allocated with |
| Encoder.PutStr | icosa.c:105-108 | copies s to position p and returns p + \|s\| |
| Encoder.PutMode | icosa.c:121-126 | writes the escape of the mode and advances by its length |
| Encoder.PutGlyph | icosa.c:130-137 | writes the glyph of the cell and advances by its length |
| Encoder.PutCell | icosa.c:117-137 | one cell keeps what is written plus what the rest of the row will emit equal to the row's bytes |
| Encoder.PutCells | icosa.c:116-138 | the inner loop, starting each row with prev == -1, appends exactly the row's cell bytes `CellsFrom` |
| Encoder.PutRow | icosa.c:115-142 | appends exactly `RowBytes` for the row |
| Encoder.Render | icosa.c:110-146 | rbuf[..n] is exactly `Frame` of the current framebuffer and floor map, and n is within rbuf |
| FrameShape.EscapeNoNewline | icosa.c:121-126 | no mode escape contains a line feed |
| FrameShape.GlyphNoNewline | icosa.c:130-137 | no glyph contains a line feed |
| FrameShape.CellsNoNewline | icosa.c:116-138 | the cells of a row hold no line feed |
| FrameShape.RowNewlines | icosa.c:139-141 | a row holds one line feed, as its last byte, except the last row, which holds none |
| FrameShape.FrameNewlines | icosa.c:141 | the frame holds exactly ch - 1 line feeds (none when ch = 0) |
| FrameShape.FrameStartsHome | icosa.c:112 | the frame starts with ESC [ H |
| FrameShape.RowEndsReset | icosa.c:139-141 | every row ends with ESC [ 0 m, followed by a line feed on every row but the last |
| FrameShape.FrameEndsReset | icosa.c:139-144 | a frame with at least one row ends with ESC [ 0 m |
| Terminal.ResetEffect | icosa.c:122 | ESC [ 0 m sets both colours to the default and changes nothing else |
| Terminal.DarkTileEffect | icosa.c:123 | ESC [ 48;5;236 m sets the background to palette 236 and changes nothing else |
| Terminal.LightTileEffect | icosa.c:124 | ESC [ 48;5;252 m sets the background to palette 252 and changes nothing else |
| Terminal.DotsEffect | icosa.c:125 | ESC [ 0;96 m sets bright cyan on the default background and changes nothing else |
| Terminal.HomeEffect | icosa.c:112 | ESC [ H moves the cursor to the origin and changes nothing else |
| Terminal.EscapeEffect | icosa.c:120-126 | each of the four escapes, read in plain-text state, sets its mode's colours whatever they were before, leaving cursor and screen alone |
| Terminal.GlyphPoint | icosa.c:130-137 | a lit cell shows U+2800 + cell, an empty one a space |
| Terminal.GlyphValues | icosa.c:131-134 | the glyph's byte values are E2, A0 + cell/64, 80 + cell%64 |
| Terminal.GlyphEffect | icosa.c:130-137 | a cell's glyph paints its character at the cursor in the current colours and moves right |
| Terminal.BrailleEffect | icosa.c:131-134 | the three UTF-8 bytes of U+2800 + c paint that character |
| Terminal.LayoutModes | icosa.c:100 | every value of the map compute_floor lays out is 0, 1 or 2, so it is a map of render's modes |
| Terminal.ModeRange | icosa.c:118 | with a map of sky, tiles and dots every mode is 0..3 |
| Terminal.CellShown | icosa.c:117-137 | one cell of the inner loop leaves its mode's colours set and the cell painted with its glyph in them |
| Terminal.EmitShown | icosa.c:116-138 | the rest of a row paints every remaining cell correctly |
| Terminal.RowShown | icosa.c:115-142 | a row paints all its cells, restores the default colours and moves to the next line |
| Terminal.RowStep | icosa.c:115-142 | row y read from its start leaves rows 0..y painted, default colours and the cursor on row y+1 |
| Terminal.FrameDisplays | icosa.c:110-146 | from any colours, cursor and screen, the frame leaves every cell (y, x) showing its glyph in its mode's colours at row y, column x, and the colours at the default |
| Topology.TipAxis | icosa.c:27-30 | each tip caps a face on axis 0, 1 or 2 |
| Topology.TipSign | icosa.c:27-30 | each tip sits on the positive or the negative side |
| Topology.BaseVerts | icosa.c:23-31 | `base_verts` doubled into half units: first the 8 cube corners (±2, ±2, ±2), then the 6 tips at ±3 on the x, y and z axes; its properties are the next rows |
| Topology.Edges | icosa.c:33-42 | `edges`: 36 index pairs, first the 12 cube edges, then each tip joined to the 4 corners of its face; its properties are the rows below |
| Topology.VertexPositions | icosa.c:23-31 | 14 vertices: the corners are 8 distinct points with every coordinate ±1, so all 8 sign choices of (±1, ±1, ±1); each tip is at ±1.5 on its axis and 0 elsewhere |
| Topology.EdgesInRange | icosa.c:33-42 | 36 edges, each joining two different vertices that are indices of `base_verts` |
| Topology.CubeEdges | icosa.c:35 | the first 12 edges join two corners that differ along exactly one axis |
| Topology.TipEdges | icosa.c:36-41 | the other 24 join a tip to a corner of the face that tip caps |
| Topology.TipJoinsOnlyItsFace | icosa.c:36-41 | a tip is joined only to corners of its face |
| Topology.TipJoinsAllItsFace | icosa.c:36-41 | a tip is joined to every corner of its face |
| Topology.FaceTable | icosa.c:36-41 | the four corners each tip is joined to, listed by hand: four distinct corners |
| Topology.FourCornersPerFace | icosa.c:36-41 | the corners on a tip's face are exactly those four, so with the two lemmas above each tip is joined to exactly four corners |
| Topology.CornersJoinedAlongEdges | icosa.c:35 | two corners are joined exactly when they differ along one axis |
| Topology.CubeEdgesDistinct | icosa.c:35 | no two cube edges join the same pair, in either order |
| Topology.TipEdgesDistinct | icosa.c:36-41 | no two tip edges join the same tip and corner |
| Topology.NoRepeatedEdge | icosa.c:33-42 | no pair of vertices is joined twice, in either order |

## Left out

- Terminal setup and teardown are not modelled: raw mode, the alternate screen, hiding the cursor, `cleanup_terminal` and the signal handlers (icosa.c:52-62, 203-212). They are I/O.
- The `ioctl` for the window size, the `poll` main loop, frame timing and argument parsing with `usage` are not modelled. They are I/O and clocks; `cw` and `ch` are parameters.
- The physics, rotation, squash and perspective projection of the vertices are not modelled. They are floating point; the model keeps only the integer tables they read.
- Floor.FloorClass: the tile parity `(floor(x) + floor(z*4)) & 1` is computed in floating point from the row's perspective depth. It is the parameter `tileOdd`. The model states only that every cell below the horizon gets 1 for odd parity and 2 for even.
- Encoder.Render: `fwrite` and `fflush` are left out. Render returns the byte count `n` it would hand to `fwrite`, and `rbuf[..n]` is the frame.
- Floor.ComputeFloor: `calloc` failure is not modelled. The source never checks the `calloc` of `floor_map` (icosa.c:89); the test at icosa.c:199 covers only `fb` and `rbuf`, and it runs before `compute_floor` is called.
- Braille.Framebuffer.constructor: `malloc` and `calloc` failure is not modelled either; allocation always succeeds.
- Integers are unbounded. The source's `int` arithmetic (`y * cw + x`, `2 * err`, `ch * 55`) could overflow only for sizes far beyond any terminal, and that is not modelled.
- Encoder.PutStr requires `0 !in s`: `put_str` copies up to the NUL terminator, and every string render passes is a literal without one.
- Terminal: the reader knows only what the frame uses: CSI `m` and `H`, line feed, printable ASCII and three-byte UTF-8. It assumes the terminal turns a line feed into CR LF and that lines do not wrap, so row y of the frame lands on screen row y.
- Encoder.PutMode, Encoder.PutGlyph, Encoder.PutCell, Encoder.PutCells, Encoder.PutRow, Raster.Advance, Floor.Allocate and Floor.FillRow are pieces of the bodies of `render`, `draw_line` and `compute_floor`. They are written as separate methods so that each proof stays small.
- Topology: coordinates are in half units (corners at ±2, tips at ±3), so `PYR = 1.5` is an integer.

=== FILE: braille.dfy ===
/** The sub-cell framebuffer: one byte per character cell, each byte holding
    the 2 x 4 dots of one braille glyph. */
module Braille {
  import Grid

  /** The dot table: column c (0 left, 1 right) and row r (0 top .. 3
      bottom) of a cell select one bit of its byte. */
  function DotBit(c: int, r: int): (b: bv8)
    requires 0 <= c < 2 && 0 <= r < 4
  {
    if c == 0 then (if r == 0 then 0x01 else if r == 1 then 0x02 else if r == 2 then 0x04 else 0x40)
    else (if r == 0 then 0x08 else if r == 1 then 0x10 else if r == 2 then 0x20 else 0x80)
  }

  /** The dot number (1..8) that the Unicode Braille Patterns block gives to
      each position: dots 1-2-3 run down the left column, 4-5-6 down the
      right one, and 7 and 8 sit below them, left and right. */
  function UnicodeDot(c: int, r: int): (d: int)
    requires 0 <= c < 2 && 0 <= r < 4
    ensures 1 <= d <= 8
  {
    if r == 3 then 7 + c else 1 + 3 * c + r
  }

  /** U+2800 + b lights dot n exactly when bit n-1 of b is set. */
  function UnicodeDotBit(d: int): (b: bv8)
    requires 1 <= d <= 8
  {
    1 << (d - 1)
  }

  /** The table follows the Unicode dot numbering. */
  lemma DotBitIsUnicodeDot(c: int, r: int)
    requires 0 <= c < 2 && 0 <= r < 4
    ensures DotBit(c, r) == UnicodeDotBit(UnicodeDot(c, r))
  {
  }

  /** Each of the 8 positions owns a single bit, no two share one, and
      together they cover the whole byte. */
  lemma DotBitsPartitionTheByte()
    ensures forall c, r :: 0 <= c < 2 && 0 <= r < 4 ==>
      DotBit(c, r) != 0 && DotBit(c, r) & (DotBit(c, r) - 1) == 0
    ensures forall c, r, c', r' :: 0 <= c < 2 && 0 <= r < 4 && 0 <= c' < 2 && 0 <= r' < 4 && (c, r) != (c', r') ==>
      DotBit(c, r) & DotBit(c', r') == 0
    ensures DotBit(0, 0) | DotBit(0, 1) | DotBit(0, 2) | DotBit(0, 3)
          | DotBit(1, 0) | DotBit(1, 1) | DotBit(1, 2) | DotBit(1, 3) == 0xFF
  {
  }

  /** Pixel (x, y) lies in the pixel space [0, 2cw) x [0, 4ch). */
  predicate InBounds(cw: nat, ch: nat, x: int, y: int)
  {
    0 <= x < 2 * cw && 0 <= y < 4 * ch
  }

  /** The cell that holds pixel (x, y), in row-major order. */
  function CellOf(cw: nat, ch: nat, x: int, y: int): (i: int)
    requires InBounds(cw, ch, x, y)
    ensures 0 <= i < cw * ch
  {
    Grid.CellBound(cw, ch, y / 4, x / 2);
    (y / 4) * cw + x / 2
  }

  /** The bit that pixel (x, y) owns within its cell. */
  function PixelBit(x: int, y: int): bv8
    requires x >= 0 && y >= 0
  {
    DotBit(x % 2, y % 4)
  }

  /** Whether pixel (x, y) is lit in buffer s. */
  predicate Lit(s: seq<bv8>, cw: nat, ch: nat, x: int, y: int)
    requires |s| == cw * ch
  {
    InBounds(cw, ch, x, y) && s[CellOf(cw, ch, x, y)] & PixelBit(x, y) != 0
  }

  /** fb_set on a value: out-of-range pixels leave the buffer as it was,
      any other ORs the pixel's bit into its cell. */
  function Plot(s: seq<bv8>, cw: nat, ch: nat, x: int, y: int): (r: seq<bv8>)
    requires |s| == cw * ch
    ensures |r| == |s|
  {
    if InBounds(cw, ch, x, y) then
      var i := CellOf(cw, ch, x, y);
      s[i := s[i] | PixelBit(x, y)]
    else s
  }

  /** Plotting lights the pixel when it is on screen. */
  lemma PlotLights(s: seq<bv8>, cw: nat, ch: nat, x: int, y: int)
    requires |s| == cw * ch
    ensures Lit(Plot(s, cw, ch, x, y), cw, ch, x, y) <==> InBounds(cw, ch, x, y)
  {
    if InBounds(cw, ch, x, y) {
      var b := PixelBit(x, y);
      assert b != 0 && b & (b - 1) == 0 by { DotBitsPartitionTheByte(); }
      assert (s[CellOf(cw, ch, x, y)] | b) & b == b;
    }
  }

  /** Two different pixels never share both cell and bit. */
  lemma DistinctPixelsDistinctDots(cw: nat, ch: nat, x: int, y: int, x': int, y': int)
    requires InBounds(cw, ch, x, y) && InBounds(cw, ch, x', y')
    requires (x, y) != (x', y')
    ensures CellOf(cw, ch, x, y) == CellOf(cw, ch, x', y') ==> PixelBit(x, y) & PixelBit(x', y') == 0
  {
    if CellOf(cw, ch, x, y) == CellOf(cw, ch, x', y') {
      Grid.IndexInjective(cw, y / 4, x / 2, y' / 4, x' / 2);
      assert (x % 2, y % 4) != (x' % 2, y' % 4);
      DotBitsPartitionTheByte();
    }
  }

  /** Plotting a pixel leaves the lit state of every other pixel as it was. */
  lemma PlotKeepsOthers(s: seq<bv8>, cw: nat, ch: nat, x: int, y: int, x': int, y': int)
    requires |s| == cw * ch
    requires (x, y) != (x', y')
    ensures Lit(Plot(s, cw, ch, x, y), cw, ch, x', y') == Lit(s, cw, ch, x', y')
  {
    if InBounds(cw, ch, x, y) && InBounds(cw, ch, x', y') {
      PlotKeepsOtherBits(s, cw, ch, x, y, x', y');
    }
  }

  lemma PlotKeepsOtherBits(s: seq<bv8>, cw: nat, ch: nat, x: int, y: int, x': int, y': int)
    requires |s| == cw * ch
    requires InBounds(cw, ch, x, y) && InBounds(cw, ch, x', y') && (x, y) != (x', y')
    ensures Plot(s, cw, ch, x, y)[CellOf(cw, ch, x', y')] & PixelBit(x', y')
         == s[CellOf(cw, ch, x', y')] & PixelBit(x', y')
  {
    var i, i' := CellOf(cw, ch, x, y), CellOf(cw, ch, x', y');
    if i == i' {
      DistinctPixelsDistinctDots(cw, ch, x, y, x', y');
      OrOtherBit(s[i], PixelBit(x, y), PixelBit(x', y'));
    }
  }

  /** ORing in a bit leaves every bit disjoint from it as it was. */
  lemma OrOtherBit(v: bv8, b: bv8, b': bv8)
    requires b & b' == 0
    ensures (v | b) & b' == v & b'
  {
  }

  /** Plotting the same pixel twice is the same as plotting it once. */
  lemma PlotIdempotent(s: seq<bv8>, cw: nat, ch: nat, x: int, y: int)
    requires |s| == cw * ch
    ensures Plot(Plot(s, cw, ch, x, y), cw, ch, x, y) == Plot(s, cw, ch, x, y)
  {
    if InBounds(cw, ch, x, y) {
      var i, b := CellOf(cw, ch, x, y), PixelBit(x, y);
      assert (s[i] | b) | b == s[i] | b;
    }
  }

  datatype Point = Point(x: int, y: int)

  /** A sequence of fb_set calls, first point first. */
  function PlotAll(s: seq<bv8>, cw: nat, ch: nat, pts: seq<Point>): (r: seq<bv8>)
    requires |s| == cw * ch
    ensures |r| == |s|
    decreases |pts|
  {
    if pts == [] then s
    else PlotAll(Plot(s, cw, ch, pts[0].x, pts[0].y), cw, ch, pts[1..])
  }

  /** After a sequence of plots, a pixel is lit exactly when it was lit
      before or it is one of the plotted on-screen points. */
  lemma {:induction false} PlotAllLit(s: seq<bv8>, cw: nat, ch: nat, pts: seq<Point>, x: int, y: int)
    requires |s| == cw * ch
    ensures Lit(PlotAll(s, cw, ch, pts), cw, ch, x, y) <==>
      Lit(s, cw, ch, x, y) || (InBounds(cw, ch, x, y) && Point(x, y) in pts)
    decreases |pts|
  {
    if pts != [] {
      var first := pts[0];
      var s' := Plot(s, cw, ch, first.x, first.y);
      PlotAllLit(s', cw, ch, pts[1..], x, y);
      assert pts == [first] + pts[1..];
      if (first.x, first.y) == (x, y) {
        PlotLights(s, cw, ch, x, y);
      } else {
        PlotKeepsOthers(s, cw, ch, first.x, first.y, x, y);
      }
    }
  }

  /** The braille framebuffer `fb` with its dimensions `cw` x `ch`. */
  class Framebuffer {
    const cw: nat
    const ch: nat
    const cells: array<bv8>

    ghost predicate Valid()
    {
      cells.Length == cw * ch
    }

    /** Width and height of the pixel space (pw, ph). */
    function PixelWidth(): nat { 2 * cw }
    function PixelHeight(): nat { 4 * ch }

    /** The buffer is allocated zeroed (calloc). */
    constructor (cw: nat, ch: nat)
      ensures Valid() && fresh(cells)
      ensures this.cw == cw && this.ch == ch
      ensures forall i :: 0 <= i < cells.Length ==> cells[i] == 0
    {
      this.cw, this.ch := cw, ch;
      cells := new bv8[cw * ch](_ => 0);
    }

    /** fb_clear: every cell back to "no dots lit". */
    method Clear()
      requires Valid()
      modifies cells
      ensures forall i :: 0 <= i < cells.Length ==> cells[i] == 0
    {
      forall i | 0 <= i < cells.Length {
        cells[i] := 0;
      }
    }

    /** fb_set: light pixel (x, y); off-screen pixels are ignored. */
    method Set(x: int, y: int)
      requires Valid()
      modifies cells
      ensures !InBounds(cw, ch, x, y) ==> cells[..] == old(cells[..])
      ensures InBounds(cw, ch, x, y) ==>
        cells[..] == old(cells[..])[CellOf(cw, ch, x, y) := old(cells[CellOf(cw, ch, x, y)]) | PixelBit(x, y)]
      ensures cells[..] == Plot(old(cells[..]), cw, ch, x, y)
    {
      if x < 0 || x >= PixelWidth() || y < 0 || y >= PixelHeight() {
        return;
      }
      var i := (y / 4) * cw + x / 2;
      assert i == CellOf(cw, ch, x, y);
      cells[i] := cells[i] | DotBit(x % 2, y % 4);
    }
  }

  /** A cleared buffer shows no pixel. */
  lemma ClearedIsDark(s: seq<bv8>, cw: nat, ch: nat, x: int, y: int)
    requires |s| == cw * ch
    requires forall i :: 0 <= i < |s| ==> s[i] == 0
    ensures !Lit(s, cw, ch, x, y)
  {
  }
}

=== FILE: encoder.dfy ===
/** The frame encoder: render turns the braille framebuffer and the floor
    map into one byte string of ANSI escapes and glyphs, emitting a colour
    escape only where the colour mode changes along a row. */
module Encoder {
  import Grid
  import Utf8
  import opened Braille

  /** ESC [ H: cursor to the top-left corner. */
  const Home: seq<bv8> := [0x1B, 0x5B, 0x48]
  /** ESC [ 0 m: all attributes back to the default (sky, and row end). */
  const Reset: seq<bv8> := [0x1B, 0x5B, 0x30, 0x6D]
  /** ESC [ 48 ; 5 ; 236 m: dark grey background (dark tile). */
  const DarkTile: seq<bv8> := [0x1B, 0x5B, 0x34, 0x38, 0x3B, 0x35, 0x3B, 0x32, 0x33, 0x36, 0x6D]
  /** ESC [ 48 ; 5 ; 252 m: light grey background (light tile). */
  const LightTile: seq<bv8> := [0x1B, 0x5B, 0x34, 0x38, 0x3B, 0x35, 0x3B, 0x32, 0x35, 0x32, 0x6D]
  /** ESC [ 0 ; 96 m: attributes reset, bright cyan foreground (dots). */
  const Dots: seq<bv8> := [0x1B, 0x5B, 0x30, 0x3B, 0x39, 0x36, 0x6D]
  const Newline: bv8 := 0x0A
  const Space: bv8 := 0x20

  /** The size the frame buffer rbuf is allocated with. */
  function Capacity(cw: nat, ch: nat): nat
  {
    ch * (cw * 20 + 16) + 64
  }

  /** A cell's colour mode: 3 when any dot is lit, else its floor class. */
  function CellMode(cell: bv8, floor: bv8): (mode: int)
    ensures mode == 3 <==> cell != 0 || floor == 3
    ensures cell == 0 ==> mode == floor as int
  {
    if cell != 0 then 3 else floor as int
  }

  /** The escape of each mode; a mode outside 0..3 falls through the
      switch and emits nothing. */
  function ModeEscape(mode: int): (e: seq<bv8>)
    ensures |e| <= 11
    ensures 0 <= mode <= 3 <==> e != []
  {
    match mode
    case 0 => Reset
    case 1 => DarkTile
    case 2 => LightTile
    case 3 => Dots
    case _ => []
  }

  /** A lit cell is its braille glyph U+2800 + cell in UTF-8, an empty cell
      one space. */
  function Glyph(cell: bv8): (g: seq<bv8>)
    ensures |g| == if cell == 0 then 1 else 3
    ensures cell == 0 ==> g == [Space]
  {
    if cell != 0 then Utf8.Encode3(Utf8.BrailleCodePoint(cell)) else [Space]
  }

  /** The bytes of a lit cell's glyph, as render writes them. */
  lemma GlyphBytes(cell: bv8)
    requires cell != 0
    ensures Glyph(cell) == [0xE2, 0xA0 | (cell >> 6), 0x80 | (cell & 0x3F)]
  {
    Utf8.BrailleBytes(cell);
  }

  /** The two per-cell inputs of render: the framebuffer bytes and the
      floor map, both cw x ch in row-major order. */
  datatype Scene = Scene(cells: seq<bv8>, floor: seq<bv8>, cw: nat, ch: nat)
  {
    predicate Valid()
    {
      |cells| == cw * ch && |floor| == cw * ch
    }

    /** The row-major index of cell (y, x): in range in a valid scene. */
    function Index(y: nat, x: nat): (k: nat)
      requires y < ch && x < cw
      ensures k < cw * ch
    {
      Grid.CellBound(cw, ch, y, x);
      y * cw + x
    }

    function Cell(y: nat, x: nat): bv8
      requires Valid() && y < ch && x < cw
    {
      cells[Index(y, x)]
    }

    function FloorAt(y: nat, x: nat): bv8
      requires Valid() && y < ch && x < cw
    {
      floor[Index(y, x)]
    }

    function Mode(y: nat, x: nat): int
      requires Valid() && y < ch && x < cw
    {
      CellMode(Cell(y, x), FloorAt(y, x))
    }

    /** Whether the cell at (y, x) is preceded by a colour escape: the
        first cell of a row always is, any other only when its mode differs
        from its left neighbour's. */
    predicate Escaped(y: nat, x: nat)
      requires Valid() && y < ch && x < cw
    {
      x == 0 || Mode(y, x) != Mode(y, x - 1)
    }
  }

  /** The bytes of one cell. */
  function CellBytes(sc: Scene, y: nat, x: nat): (r: seq<bv8>)
    requires sc.Valid() && y < sc.ch && x < sc.cw
    ensures |r| <= 14
  {
    (if sc.Escaped(y, x) then ModeEscape(sc.Mode(y, x)) else []) + Glyph(sc.Cell(y, x))
  }

  /** The bytes of cells x.. of row y. */
  function CellsFrom(sc: Scene, y: nat, x: nat): (r: seq<bv8>)
    requires sc.Valid() && y < sc.ch && x <= sc.cw
    ensures |r| <= 14 * (sc.cw - x)
    decreases sc.cw - x
  {
    if x == sc.cw then [] else CellBytes(sc, y, x) + CellsFrom(sc, y, x + 1)
  }

  /** render's inner loop from cell x on, holding prev: the escape of a
      cell's mode is written when the mode differs from prev. */
  function Emit(sc: Scene, y: nat, x: nat, prev: int): (r: seq<bv8>)
    requires sc.Valid() && y < sc.ch && x <= sc.cw
    decreases sc.cw - x
  {
    if x == sc.cw then []
    else
      var mode := sc.Mode(y, x);
      (if mode != prev then ModeEscape(mode) else []) + Glyph(sc.Cell(y, x)) + Emit(sc, y, x + 1, mode)
  }

  /** Holding the left neighbour's mode in prev, and -1 before the first
      cell, the loop escapes exactly the cells that Escaped names. */
  lemma {:induction false} EmitIsCells(sc: Scene, y: nat, x: nat, prev: int)
    requires sc.Valid() && y < sc.ch && x <= sc.cw
    requires prev == if x == 0 then -1 else sc.Mode(y, x - 1)
    ensures Emit(sc, y, x, prev) == CellsFrom(sc, y, x)
    decreases sc.cw - x
  {
    if x < sc.cw {
      var mode := sc.Mode(y, x);
      EmitIsCells(sc, y, x + 1, mode);
      assert sc.Escaped(y, x) <==> mode != prev by {
        if x == 0 {
          assert mode >= 0;
        }
      }
    }
  }

  /** A whole row: its cells, a reset, and a newline unless it is the last. */
  function RowBytes(sc: Scene, y: nat): (r: seq<bv8>)
    requires sc.Valid() && y < sc.ch
    ensures |r| <= 14 * sc.cw + 5
  {
    CellsFrom(sc, y, 0) + Reset + (if y < sc.ch - 1 then [Newline] else [])
  }

  /** Rows y.. of the frame. */
  function RowsFrom(sc: Scene, y: nat): (r: seq<bv8>)
    requires sc.Valid() && y <= sc.ch
    decreases sc.ch - y
  {
    if y == sc.ch then [] else RowBytes(sc, y) + RowsFrom(sc, y + 1)
  }

  /** The frame render writes. */
  function Frame(sc: Scene): seq<bv8>
    requires sc.Valid()
  {
    Home + RowsFrom(sc, 0)
  }

  /** Rows y.. take at most 14 * cw + 5 bytes each. */
  lemma {:induction false} RowsLength(sc: Scene, y: nat)
    requires sc.Valid() && y <= sc.ch
    ensures |RowsFrom(sc, y)| <= (sc.ch - y) * (14 * sc.cw + 5)
    decreases sc.ch - y
  {
    if y < sc.ch {
      RowsLength(sc, y + 1);
      assert (sc.ch - y - 1) * (14 * sc.cw + 5) + (14 * sc.cw + 5) == (sc.ch - y) * (14 * sc.cw + 5);
    }
  }

  /** The frame always fits in the buffer render is given. */
  lemma FrameFits(sc: Scene)
    requires sc.Valid()
    ensures |Frame(sc)| <= Capacity(sc.cw, sc.ch)
  {
    RowsLength(sc, 0);
    Grid.MulLe(sc.ch, 14 * sc.cw + 5, sc.cw * 20 + 16);
  }

  /** A finished row is its cells, the reset and the newline if one is due. */
  lemma RowEnd(sc: Scene, y: nat, start: seq<bv8>)
    requires sc.Valid() && y < sc.ch
    ensures start + CellsFrom(sc, y, 0) + Reset + (if y < sc.ch - 1 then [Newline] else [])
         == start + RowBytes(sc, y)
  {
    var nl: seq<bv8> := if y < sc.ch - 1 then [Newline] else [];
    var cells := CellsFrom(sc, y, 0);
    Assoc(start, cells + Reset, nl);
    Assoc(start, cells, Reset);
  }

  /** Writing row y moves the split between what is written and what
      remains of the frame on by one row. */
  lemma RowsStep(written: seq<bv8>, sc: Scene, y: nat)
    requires sc.Valid() && y < sc.ch
    ensures written + RowsFrom(sc, y) == (written + RowBytes(sc, y)) + RowsFrom(sc, y + 1)
  {
    Assoc(written, RowBytes(sc, y), RowsFrom(sc, y + 1));
  }

  lemma Assoc(a: seq<bv8>, b: seq<bv8>, c: seq<bv8>)
    ensures a + (b + c) == (a + b) + c
  {
  }

  /** put_str: copy the bytes of a string (its characters before the NUL
      terminator) to position p and return the position after them. */
  method PutStr(buf: array<bv8>, p: nat, s: seq<bv8>) returns (q: nat)
    requires 0 !in s
    requires p + |s| <= buf.Length
    modifies buf
    ensures q == p + |s|
    ensures buf[..q] == old(buf[..p]) + s
  {
    q := p;
    var i := 0;
    while i < |s|
      invariant 0 <= i <= |s| && q == p + i
      invariant buf[..q] == old(buf[..p]) + s[..i]
    {
      buf[q] := s[i];
      q, i := q + 1, i + 1;
    }
    assert s[..i] == s;
  }

  /** render's switch on the mode: the escape of the mode written at p. */
  method PutMode(buf: array<bv8>, p: nat, mode: int) returns (q: nat)
    requires p + |ModeEscape(mode)| <= buf.Length
    modifies buf
    ensures q == p + |ModeEscape(mode)|
    ensures buf[..q] == old(buf[..p]) + ModeEscape(mode)
  {
    q := p;
    match mode {
      case 0 => q := PutStr(buf, p, Reset);
      case 1 => q := PutStr(buf, p, DarkTile);
      case 2 => q := PutStr(buf, p, LightTile);
      case 3 => q := PutStr(buf, p, Dots);
      case _ =>
    }
  }

  /** The glyph of one cell written at p: the three UTF-8 bytes of
      U+2800 + cell when any dot is lit, else a space. */
  method PutGlyph(buf: array<bv8>, p: nat, cell: bv8) returns (q: nat)
    requires p + |Glyph(cell)| <= buf.Length
    modifies buf
    ensures q == p + |Glyph(cell)|
    ensures buf[..q] == old(buf[..p]) + Glyph(cell)
  {
    if cell != 0 {
      var cp: bv32 := 0x2800 + cell as bv32;
      buf[p] := (0xE0 | (cp >> 12)) as bv8;
      buf[p + 1] := (0x80 | ((cp >> 6) & 0x3F)) as bv8;
      buf[p + 2] := (0x80 | (cp & 0x3F)) as bv8;
      q := p + 3;
    } else {
      buf[p] := Space;
      q := p + 1;
    }
  }

  /** The inputs render reads, seen as the scene sc; rbuf is neither of
      them. */
  ghost predicate Reads(fb: Framebuffer, floorMap: array<bv8>, rbuf: array<bv8>, sc: Scene)
    reads fb.cells, floorMap
  {
    && fb.Valid() && floorMap.Length == fb.cw * fb.ch
    && rbuf != fb.cells && rbuf != floorMap
    && sc == Scene(fb.cells[..], floorMap[..], fb.cw, fb.ch)
  }

  /** Part of row y is written: what rbuf holds up to q, followed by what
      the loop will emit from cell x on with prev, is the whole row's
      cells after `start`, and that fits in rbuf. */
  ghost predicate RowSoFar(rbuf: array<bv8>, q: int, goal: seq<bv8>, sc: Scene, y: nat, x: nat, prev: int)
    reads rbuf
  {
    && sc.Valid() && y < sc.ch && x <= sc.cw
    && 0 <= q <= rbuf.Length && |goal| <= rbuf.Length
    && rbuf[..q] + Emit(sc, y, x, prev) == goal
  }

  /** One cell of render's inner loop: the mode's escape when it differs
      from prev, then the glyph; the new prev is the cell's mode. */
  method PutCell(fb: Framebuffer, floorMap: array<bv8>, rbuf: array<bv8>, p: nat, y: nat, x: nat, prev: int,
                 ghost sc: Scene, ghost goal: seq<bv8>)
    returns (q: nat, prev': int)
    requires Reads(fb, floorMap, rbuf, sc) && x < sc.cw
    requires RowSoFar(rbuf, p, goal, sc, y, x, prev)
    modifies rbuf
    ensures RowSoFar(rbuf, q, goal, sc, y, x + 1, prev')
  {
    var cw := fb.cw;
    var idx := y * cw + x;
    Grid.CellBound(cw, fb.ch, y, x);
    assert idx == sc.Index(y, x);
    var mode := if fb.cells[idx] != 0 then 3 else floorMap[idx] as int;
    assert mode == sc.Mode(y, x);
    ghost var escape := if mode != prev then ModeEscape(mode) else [];
    ghost var glyph := Glyph(sc.Cell(y, x));
    ghost var rest := Emit(sc, y, x + 1, mode);
    assert Emit(sc, y, x, prev) == escape + glyph + rest;
    q, prev' := p, prev;
    if mode != prev {
      q := PutMode(rbuf, q, mode);
      prev' := mode;
    }
    assert rbuf[..q] == old(rbuf[..p]) + escape;
    q := PutGlyph(rbuf, q, fb.cells[idx]);
    Assoc(old(rbuf[..p]), escape, glyph);
    Assoc(old(rbuf[..p]) + escape, glyph, rest);
    Assoc(old(rbuf[..p]), escape, glyph + rest);
    Assoc(escape, glyph, rest);
  }

  /** render's inner loop over the cells of row y, starting with
      prev == -1. */
  method PutCells(fb: Framebuffer, floorMap: array<bv8>, rbuf: array<bv8>, p: nat, y: nat, ghost sc: Scene)
    returns (q: nat)
    requires Reads(fb, floorMap, rbuf, sc) && y < sc.ch
    requires p + |CellsFrom(sc, y, 0)| <= rbuf.Length
    modifies rbuf
    ensures q == p + |CellsFrom(sc, y, 0)|
    ensures rbuf[..q] == old(rbuf[..p]) + CellsFrom(sc, y, 0)
  {
    ghost var goal := rbuf[..p] + CellsFrom(sc, y, 0);
    EmitIsCells(sc, y, 0, -1);
    var prev := -1;
    q := p;
    var x := 0;
    while x < fb.cw
      invariant x <= fb.cw
      invariant Reads(fb, floorMap, rbuf, sc)
      invariant RowSoFar(rbuf, q, goal, sc, y, x, prev)
    {
      q, prev := PutCell(fb, floorMap, rbuf, q, y, x, prev, sc, goal);
      x := x + 1;
    }
    assert rbuf[..q] == goal;
  }

  /** One row of render: its cells, then the reset and, except on the last
      row, a newline. render resets prev to -1 at the end of every row, so
      every row starts with prev == -1. */
  method PutRow(fb: Framebuffer, floorMap: array<bv8>, rbuf: array<bv8>, p: nat, y: nat, ghost sc: Scene)
    returns (q: nat)
    requires Reads(fb, floorMap, rbuf, sc) && y < sc.ch
    requires p + |RowBytes(sc, y)| <= rbuf.Length
    modifies rbuf
    ensures q == p + |RowBytes(sc, y)|
    ensures rbuf[..q] == old(rbuf[..p]) + RowBytes(sc, y)
  {
    ghost var start := rbuf[..p];
    q := PutCells(fb, floorMap, rbuf, p, y, sc);
    q := PutStr(rbuf, q, Reset);
    if y < fb.ch - 1 {
      ghost var middle := rbuf[..q];
      rbuf[q] := Newline;
      assert rbuf[..q + 1] == middle + [Newline];
      q := q + 1;
    }
    RowEnd(sc, y, start);
  }

  /** The first rows are written: what rbuf holds up to p, followed by
      rows y.., is the whole frame, and that fits in rbuf. */
  ghost predicate FrameSoFar(rbuf: array<bv8>, p: int, sc: Scene, y: nat)
    reads rbuf
  {
    && sc.Valid() && y <= sc.ch
    && 0 <= p <= rbuf.Length && |Frame(sc)| <= rbuf.Length
    && rbuf[..p] + RowsFrom(sc, y) == Frame(sc)
  }

  /** render: the frame for the current framebuffer and floor map, written
      to rbuf; n is the number of bytes render hands to fwrite. */
  method Render(fb: Framebuffer, floorMap: array<bv8>, rbuf: array<bv8>) returns (n: nat)
    requires fb.Valid() && floorMap.Length == fb.cw * fb.ch
    requires rbuf.Length >= Capacity(fb.cw, fb.ch)
    requires rbuf != fb.cells && rbuf != floorMap
    modifies rbuf
    ensures n <= rbuf.Length
    ensures rbuf[..n] == Frame(Scene(fb.cells[..], floorMap[..], fb.cw, fb.ch))
  {
    ghost var sc := Scene(fb.cells[..], floorMap[..], fb.cw, fb.ch);
    FrameFits(sc);
    var p := PutStr(rbuf, 0, Home);
    var y := 0;
    while y < fb.ch
      invariant y <= fb.ch
      invariant Reads(fb, floorMap, rbuf, sc)
      invariant FrameSoFar(rbuf, p, sc, y)
    {
      RowsStep(rbuf[..p], sc, y);
      p := PutRow(fb, floorMap, rbuf, p, y, sc);
      y := y + 1;
    }
    n := p;
    assert rbuf[..n] + RowsFrom(sc, y) == Frame(sc);
  }
}

=== FILE: floor.dfy ===
/** The floor map: per cell 0 = sky, 1 = dark tile, 2 = light tile, laid
    out once from the terminal size. */
module Floor {
  import Grid

  /** The horizon row, 55% of the way down: ch * 55 / 100. */
  function Horizon(ch: nat): (h: nat)
    ensures 100 * h <= 55 * ch < 100 * (h + 1)
    ensures ch >= 1 ==> h < ch
    ensures ch >= 3 ==> h + 1 < ch
  {
    ch * 55 / 100
  }

  /** The class of the cell at (row, col). Rows 0..horizon are sky; below
      that the tile parity, which the source computes in floating point
      from the perspective depth of the row and the column's position, is
      the parameter tileOdd: odd parity gives a dark tile, even a light one. */
  function FloorClass(ch: nat, tileOdd: (int, int) -> bool, row: int, col: int): (c: bv8)
    ensures c <= 2
    ensures c == 0 <==> row <= Horizon(ch)
  {
    if row <= Horizon(ch) then 0 else if tileOdd(row, col) then 1 else 2
  }

  /** The whole map in row-major order. */
  function Layout(cw: nat, ch: nat, tileOdd: (int, int) -> bool): (m: seq<bv8>)
    ensures |m| == cw * ch
  {
    seq(cw * ch, k requires 0 <= k < cw * ch => FloorClass(ch, tileOdd, k / cw, k % cw))
  }

  lemma RowMajor(cw: nat, ch: nat, row: nat, col: nat)
    requires row < ch && col < cw
    ensures row * cw + col < cw * ch
    ensures (row * cw + col) / cw == row && (row * cw + col) % cw == col
  {
    Grid.CellBound(cw, ch, row, col);
    Grid.RowCol(cw, row, col);
  }

  /** A cell below the horizon holds its tile class. */
  lemma LayoutCell(cw: nat, ch: nat, tileOdd: (int, int) -> bool, row: nat, col: nat)
    requires Horizon(ch) < row < ch && col < cw
    ensures row * cw + col < cw * ch
    ensures Layout(cw, ch, tileOdd)[row * cw + col] == if tileOdd(row, col) then 1 else 2
  {
    RowMajor(cw, ch, row, col);
  }

  /** Every cell at or above the horizon row is sky, every cell below it is
      a dark or light tile. */
  lemma LayoutRows(cw: nat, ch: nat, tileOdd: (int, int) -> bool, row: nat, col: nat)
    requires row < ch && col < cw
    ensures row * cw + col < cw * ch
    ensures row <= Horizon(ch) ==> Layout(cw, ch, tileOdd)[row * cw + col] == 0
    ensures row > Horizon(ch) ==> Layout(cw, ch, tileOdd)[row * cw + col] in {1, 2}
  {
    RowMajor(cw, ch, row, col);
  }

  /** Every value of the map is 0, 1 or 2. */
  lemma LayoutValues(cw: nat, ch: nat, tileOdd: (int, int) -> bool, k: int)
    requires 0 <= k < cw * ch
    ensures Layout(cw, ch, tileOdd)[k] as int <= 2
  {
  }

  /** The map part-way through compute_floor: the first n cells in their
      final state, the rest still zero from calloc. */
  ghost function Filled(cw: nat, ch: nat, tileOdd: (int, int) -> bool, n: int): (m: seq<bv8>)
    ensures |m| == cw * ch
  {
    seq(cw * ch, k requires 0 <= k < cw * ch => if k < n then Layout(cw, ch, tileOdd)[k] else 0)
  }

  /** Filling cell n moves the boundary on by one. */
  lemma FillOne(cw: nat, ch: nat, tileOdd: (int, int) -> bool, n: nat)
    requires n < cw * ch
    ensures Filled(cw, ch, tileOdd, n)[n := Layout(cw, ch, tileOdd)[n]] == Filled(cw, ch, tileOdd, n + 1)
  {
  }

  /** The freshly zeroed map already holds the sky rows 0..horizon. */
  lemma SkyFilled(cw: nat, ch: nat, tileOdd: (int, int) -> bool)
    ensures Filled(cw, ch, tileOdd, (Horizon(ch) + 1) * cw) == seq(cw * ch, _ => 0)
  {
    var h := Horizon(ch);
    forall k | 0 <= k < cw * ch && k < (h + 1) * cw
      ensures Layout(cw, ch, tileOdd)[k] == 0
    {
      Grid.RowBelow(cw, k, h + 1);
    }
  }

  /** Once the boundary passes the last row the map is complete. */
  lemma AllFilled(cw: nat, ch: nat, tileOdd: (int, int) -> bool, row: nat)
    requires row >= ch
    ensures Filled(cw, ch, tileOdd, row * cw) == Layout(cw, ch, tileOdd)
  {
    Grid.MulLe(cw, ch, row);
    assert cw * row == row * cw;
    var f, m := Filled(cw, ch, tileOdd, row * cw), Layout(cw, ch, tileOdd);
    assert |f| == |m|;
    forall k | 0 <= k < |m|
      ensures f[k] == m[k]
    {
    }
  }

  /** A whole row filled is the boundary at the start of the next row. */
  lemma NextRow(cw: nat, row: nat)
    ensures row * cw + cw == (row + 1) * cw
  {
  }

  /** One row of compute_floor below the horizon: each column gets its
      tile class. */
  method FillRow(floorMap: array<bv8>, cw: nat, ch: nat, tileOdd: (int, int) -> bool, row: nat)
    requires floorMap.Length == cw * ch && Horizon(ch) < row < ch
    requires floorMap[..] == Filled(cw, ch, tileOdd, row * cw)
    modifies floorMap
    ensures floorMap[..] == Filled(cw, ch, tileOdd, (row + 1) * cw)
  {
    var col := 0;
    while col < cw
      invariant 0 <= col <= cw
      invariant floorMap[..] == Filled(cw, ch, tileOdd, row * cw + col)
    {
      LayoutCell(cw, ch, tileOdd, row, col);
      FillOne(cw, ch, tileOdd, row * cw + col);
      floorMap[row * cw + col] := if tileOdd(row, col) then 1 else 2;
      col := col + 1;
    }
    NextRow(cw, row);
  }

  /** calloc of the map: every cell zero, which is already the final
      state of the sky rows 0..horizon. */
  method Allocate(cw: nat, ch: nat, ghost tileOdd: (int, int) -> bool) returns (floorMap: array<bv8>)
    ensures fresh(floorMap)
    ensures floorMap[..] == Filled(cw, ch, tileOdd, (Horizon(ch) + 1) * cw)
  {
    floorMap := new bv8[cw * ch](_ => 0);
    SkyFilled(cw, ch, tileOdd);
    assert floorMap[..] == seq(cw * ch, _ => 0);
  }

  /** compute_floor: allocate the map zeroed (calloc), then fill every row
      below the horizon, leaving rows 0..horizon as sky. */
  method ComputeFloor(cw: nat, ch: nat, tileOdd: (int, int) -> bool) returns (floorMap: array<bv8>, horizon: nat)
    ensures fresh(floorMap)
    ensures horizon == Horizon(ch)
    ensures floorMap[..] == Layout(cw, ch, tileOdd)
  {
    floorMap := Allocate(cw, ch, tileOdd);
    horizon := ch * 55 / 100;
    var row := horizon + 1;
    while row < ch
      invariant horizon + 1 <= row && (row <= ch || ch == 0)
      invariant floorMap[..] == Filled(cw, ch, tileOdd, row * cw)
    {
      FillRow(floorMap, cw, ch, tileOdd, row);
      row := row + 1;
    }
    AllFilled(cw, ch, tileOdd, if ch == 0 then 0 else row);
  }
}

=== FILE: grid.dfy ===
/** Row-major addressing of a grid of `width` columns, shared by the
    framebuffer, the floor map and the frame encoder. */
module Grid {

  /** Cell (row, col) of a `width` x `height` grid has an index inside it. */
  lemma CellBound(width: nat, height: nat, row: nat, col: nat)
    requires row < height && col < width
    ensures row * width + col < width * height
  {
    var d := height - 1 - row;
    assert width * height == height * width;
    assert height * width == (row + d) * width + width;
    assert (row + d) * width == row * width + d * width;
    assert d * width >= 0;
  }

  /** Row-major indices are unique: equal indices mean equal rows and equal
      columns. */
  lemma {:induction false} IndexInjective(width: nat, row: nat, col: nat, row': nat, col': nat)
    requires col < width && col' < width
    requires row * width + col == row' * width + col'
    ensures row == row' && col == col'
  {
    if row < row' {
      RowsApart(width, row, row' - row);
    } else if row' < row {
      RowsApart(width, row', row - row');
    }
  }

  /** Moving d >= 1 rows down moves the index by at least a whole row. */
  lemma RowsApart(width: nat, row: nat, d: nat)
    requires d >= 1
    ensures (row + d) * width == row * width + d * width
    ensures d * width >= width
  {
    assert (d - 1) * width >= 0;
  }

  /** Division and remainder by the width recover row and column. */
  lemma RowCol(width: nat, row: nat, col: nat)
    requires col < width
    ensures (row * width + col) / width == row && (row * width + col) % width == col
  {
    var k := row * width + col;
    var q, r := k / width, k % width;
    assert q * width + r == k;
    assert q >= 0;
    IndexInjective(width, q, r, row, col);
  }

  /** An index below `rows` whole rows lies in one of those rows. */
  lemma RowBelow(width: nat, k: nat, rows: nat)
    requires k < rows * width
    ensures k / width < rows
  {
    var q, r := k / width, k % width;
    assert q * width + r == k;
    MulCancel(q, rows, width);
  }

  /** Multiplying by a natural number keeps a strict order reversible. */
  lemma MulCancel(a: int, b: int, w: nat)
    ensures a * w < b * w ==> a < b
  {
    if a >= b {
      assert a * w - b * w == (a - b) * w;
    }
  }

  /** Multiplying by a natural number keeps order. */
  lemma MulLe(k: nat, m: int, n: int)
    requires m <= n
    ensures k * m <= k * n
  {
    assert k * n - k * m == k * (n - m);
  }
}

=== FILE: raster.dfy ===
/** The line rasteriser: the integer error-accumulation form of Bresenham's
    algorithm, plotting through the framebuffer's bounds-checked Set. */
module Raster {
  import Grid
  import opened Braille

  function Abs(n: int): (r: int)
    ensures r >= 0 && (r == n || r == -n)
  {
    if n < 0 then -n else n
  }

  function Max(a: int, b: int): int
  {
    if a < b then b else a
  }

  /** A segment from (x0, y0) to (x1, y1); either end may be off-screen.
      A walk position is (i, j): the number of steps taken along x and
      along y so far. */
  datatype Segment = Segment(x0: int, y0: int, x1: int, y1: int)
  {
    /** The algorithm's dx (>= 0) and dy (<= 0). */
    function Dx(): nat { Abs(x1 - x0) }
    function Dy(): int { -Abs(y1 - y0) }

    /** The point reached after i steps along x and j along y: each step
        goes in direction sx (resp. sy), which is +1 only when the target
        coordinate is larger. */
    function At(i: nat, j: nat): (p: Point)
      ensures Abs(p.x - x0) == i && Abs(p.y - y0) == j
      ensures i <= Dx() ==> Abs(x1 - p.x) == Dx() - i
      ensures j <= -Dy() ==> Abs(y1 - p.y) == -Dy() - j
    {
      Point(if x0 < x1 then x0 + i else x0 - i, if y0 < y1 then y0 + j else y0 - j)
    }

    /** The error term after i x-steps and j y-steps: it starts at dx + dy,
        each x-step adds dy and each y-step adds dx. */
    function Err(i: nat, j: nat): int
      decreases i + j
    {
      if i > 0 then Err(i - 1, j) + Dy()
      else if j > 0 then Err(0, j - 1) + Dx()
      else Dx() + Dy()
    }

    predicate InBox(i: nat, j: nat)
    {
      i <= Dx() && j <= -Dy()
    }

    predicate Done(i: nat, j: nat)
    {
      i == Dx() && j == -Dy()
    }

    /** The two tests on e2 = 2 * err. */
    predicate StepX(i: nat, j: nat) { 2 * Err(i, j) >= Dy() }
    predicate StepY(i: nat, j: nat) { 2 * Err(i, j) <= Dx() }

    function Next(i: nat, j: nat): (nat, nat)
    {
      (if StepX(i, j) then i + 1 else i, if StepY(i, j) then j + 1 else j)
    }
  }

  /** The error term in closed form: dx * (1 + j) + dy * (1 + i). */
  lemma {:induction false} ErrClosed(s: Segment, i: nat, j: nat)
    ensures s.Err(i, j) == s.Dx() * (1 + j) + s.Dy() * (1 + i)
    decreases i + j
  {
    if i > 0 {
      ErrClosed(s, i - 1, j);
    } else if j > 0 {
      ErrClosed(s, 0, j - 1);
    }
  }

  /** The error term moves by dy per x-step and by dx per y-step. */
  lemma ErrStep(s: Segment, i: nat, j: nat)
    ensures s.Err(i + 1, j) == s.Err(i, j) + s.Dy()
    ensures s.Err(i, j + 1) == s.Err(i, j) + s.Dx()
    ensures s.Err(i + 1, j + 1) == s.Err(i, j) + s.Dx() + s.Dy()
  {
    ErrClosed(s, i, j);
    ErrClosed(s, i, j + 1);
    ErrClosed(s, i + 1, j + 1);
  }

  /** The walk is exactly at the target when it has taken dx x-steps and
      -dy y-steps. */
  lemma AtTarget(s: Segment, i: nat, j: nat)
    requires s.InBox(i, j)
    ensures s.At(i, j) == Point(s.x1, s.y1) <==> s.Done(i, j)
  {
  }

  /** Away from the target every iteration steps at least one coordinate
      and never steps a coordinate that is already on target. */
  lemma Progress(s: Segment, i: nat, j: nat)
    requires s.InBox(i, j) && !s.Done(i, j)
    ensures s.StepX(i, j) || s.StepY(i, j)
    ensures s.StepX(i, j) ==> i < s.Dx()
    ensures s.StepY(i, j) ==> j < -s.Dy()
  {
    if i == s.Dx() {
      NoStepPastX(s, j);
    }
    if j == -s.Dy() {
      NoStepPastY(s, i);
    }
  }

  /** On the target column with y still to go, 2 * err < dy. */
  lemma NoStepPastX(s: Segment, j: nat)
    requires j < -s.Dy()
    ensures !s.StepX(s.Dx(), j)
  {
    var a, b := s.Dx(), -s.Dy();
    ErrClosed(s, a, j);
    assert s.Err(a, j) == a * (1 + j) - b - b * a;
    Grid.MulLe(a, 1 + j, b);
    assert a * b == b * a;
  }

  /** On the target row with x still to go, 2 * err > dx. */
  lemma NoStepPastY(s: Segment, i: nat)
    requires i < s.Dx()
    ensures !s.StepY(i, -s.Dy())
  {
    var a, b := s.Dx(), -s.Dy();
    ErrClosed(s, i, b);
    assert s.Err(i, b) == a + a * b - b * (1 + i);
    Grid.MulLe(b, 1 + i, a);
    assert a * b == b * a;
  }

  /** The points the algorithm plots from walk position (i, j) on, in order.
      The walk ends at the target (x1, y1). */
  function Walk(s: Segment, i: nat, j: nat): (r: seq<Point>)
    requires s.InBox(i, j)
    ensures |r| >= 1 && r[0] == s.At(i, j)
    ensures r[|r| - 1] == Point(s.x1, s.y1)
    decreases s.Dx() - i - s.Dy() - j
  {
    if s.Done(i, j) then
      AtTarget(s, i, j);
      [s.At(i, j)]
    else
      Progress(s, i, j);
      var (i', j') := s.Next(i, j);
      [s.At(i, j)] + Walk(s, i', j')
  }

  /** draw_line(x0, y0, x1, y1) as the sequence of points it plots. */
  function LinePoints(s: Segment): (r: seq<Point>)
    ensures |r| >= 1
    ensures r[0] == Point(s.x0, s.y0)
    ensures r[|r| - 1] == Point(s.x1, s.y1)
  {
    Walk(s, 0, 0)
  }

  /** The invariant behind the point count: along the longer axis every
      iteration steps, so the error term stays on that axis's side. */
  ghost predicate Balanced(s: Segment, i: nat, j: nat)
  {
    var a, b := s.Dx(), -s.Dy();
    && s.InBox(i, j)
    && (a >= b ==> 2 * s.Err(i, j) >= -b && a - i >= b - j)
    && (a <= b ==> 2 * s.Err(i, j) <= a && b - j >= a - i)
  }

  /** The walk starts balanced. */
  lemma BalancedAtStart(s: Segment)
    ensures Balanced(s, 0, 0)
  {
  }

  /** On the diagonal of the remaining box, with dx > -dy, the error term is
      (a - b) * (1 + j - b) <= 0, so a y-step is due as well. */
  lemma DiagonalStepsY(s: Segment, i: nat, j: nat)
    requires s.InBox(i, j) && !s.Done(i, j)
    requires s.Dx() > -s.Dy() && s.Dx() - i == -s.Dy() - j
    ensures s.StepY(i, j)
  {
    var a, b := s.Dx(), -s.Dy();
    ErrClosed(s, i, j);
    assert i == j + (a - b);
    assert s.Err(i, j) == (a - b) * (1 + j - b) by {
      assert s.Err(i, j) == a * (1 + j) - b * (1 + j + (a - b));
      assert b * (1 + j + (a - b)) == b * (1 + j) + b * (a - b);
      assert a * (1 + j) - b * (1 + j) == (a - b) * (1 + j);
      assert (a - b) * (1 + j) - b * (a - b) == (a - b) * (1 + j - b);
    }
    Grid.MulLe(a - b, 1 + j - b, 0);
  }

  /** The mirror image: with -dy > dx an x-step is due on the diagonal. */
  lemma DiagonalStepsX(s: Segment, i: nat, j: nat)
    requires s.InBox(i, j) && !s.Done(i, j)
    requires -s.Dy() > s.Dx() && s.Dx() - i == -s.Dy() - j
    ensures s.StepX(i, j)
  {
    var a, b := s.Dx(), -s.Dy();
    ErrClosed(s, i, j);
    assert j == i + (b - a);
    assert s.Err(i, j) == (b - a) * (a - 1 - i) by {
      assert s.Err(i, j) == a * (1 + i + (b - a)) - b * (1 + i);
      assert a * (1 + i + (b - a)) == a * (1 + i) + a * (b - a);
      assert a * (1 + i) - b * (1 + i) == (a - b) * (1 + i);
      assert (a - b) * (1 + i) + a * (b - a) == (b - a) * (a - 1 - i);
    }
    Grid.MulLe(b - a, 0, a - 1 - i);
  }

  /** One iteration keeps the walk balanced and shortens the longer
      remaining distance by exactly one. */
  lemma BalancedStep(s: Segment, i: nat, j: nat)
    requires Balanced(s, i, j) && !s.Done(i, j)
    ensures Balanced(s, s.Next(i, j).0, s.Next(i, j).1)
    ensures Max(s.Dx() - s.Next(i, j).0, -s.Dy() - s.Next(i, j).1) == Max(s.Dx() - i, -s.Dy() - j) - 1
  {
    var a, b := s.Dx(), -s.Dy();
    var e := s.Err(i, j);
    Progress(s, i, j);
    if a > b && a - i == b - j {
      DiagonalStepsY(s, i, j);
    }
    if b > a && b - j == a - i {
      DiagonalStepsX(s, i, j);
    }
    var (i', j') := s.Next(i, j);
    assert s.Err(i', j') == e + (if s.StepX(i, j) then -b else 0) + (if s.StepY(i, j) then a else 0) by {
      ErrStep(s, i, j);
    }
  }

  /** From a balanced position the walk plots max(remaining dx, remaining
      -dy) + 1 points. */
  lemma {:induction false} WalkLength(s: Segment, i: nat, j: nat)
    requires Balanced(s, i, j)
    ensures |Walk(s, i, j)| == Max(s.Dx() - i, -s.Dy() - j) + 1
    decreases s.Dx() - i - s.Dy() - j
  {
    if !s.Done(i, j) {
      Progress(s, i, j);
      BalancedStep(s, i, j);
      var (i', j') := s.Next(i, j);
      WalkLength(s, i', j');
    }
  }

  /** draw_line plots exactly max(|x1 - x0|, |y1 - y0|) + 1 points. */
  lemma LinePointCount(s: Segment)
    ensures |LinePoints(s)| == Max(Abs(s.x1 - s.x0), Abs(s.y1 - s.y0)) + 1
  {
    BalancedAtStart(s);
    WalkLength(s, 0, 0);
  }

  /** c' is c, or c moved by one toward t (never past it). */
  predicate Toward(c: int, c': int, t: int)
  {
    c' == c || (c < t && c' == c + 1) || (c > t && c' == c - 1)
  }

  /** An 8-connected step toward the target: the point changes, and each
      coordinate moves by at most one, toward the target's. */
  predicate StepToward(p: Point, q: Point, target: Point)
  {
    p != q && Toward(p.x, q.x, target.x) && Toward(p.y, q.y, target.y)
  }

  /** Every two consecutive points of a walk are an 8-connected step toward
      the target. */
  lemma {:induction false} WalkSteps(s: Segment, i: nat, j: nat, k: int)
    requires s.InBox(i, j)
    requires 0 <= k < |Walk(s, i, j)| - 1
    ensures StepToward(Walk(s, i, j)[k], Walk(s, i, j)[k + 1], Point(s.x1, s.y1))
    decreases s.Dx() - i - s.Dy() - j
  {
    Progress(s, i, j);
    var (i', j') := s.Next(i, j);
    if k > 0 {
      WalkSteps(s, i', j', k - 1);
    }
  }

  /** Consecutive points of a line are 8-connected and move toward (x1, y1). */
  lemma LineSteps(s: Segment, k: int)
    requires 0 <= k < |LinePoints(s)| - 1
    ensures StepToward(LinePoints(s)[k], LinePoints(s)[k + 1], Point(s.x1, s.y1))
  {
    WalkSteps(s, 0, 0, k);
  }

  /** A degenerate segment plots its one point. */
  lemma SinglePoint(x: int, y: int)
    ensures LinePoints(Segment(x, y, x, y)) == [Point(x, y)]
  {
  }

  /** A horizontal segment left to right plots every x from x0 to x1 on
      row y0 and nothing else. */
  lemma {:induction false} HorizontalWalk(s: Segment, i: nat)
    requires s.y0 == s.y1 && s.x0 <= s.x1 && 0 <= i <= s.Dx()
    ensures |Walk(s, i, 0)| == s.x1 - s.x0 - i + 1
    ensures forall k :: 0 <= k < |Walk(s, i, 0)| ==> Walk(s, i, 0)[k] == Point(s.x0 + i + k, s.y0)
    decreases s.Dx() - i
  {
    if i < s.Dx() {
      ErrClosed(s, i, 0);
      assert s.Next(i, 0) == (i + 1, 0);
      HorizontalWalk(s, i + 1);
    }
  }

  /** A horizontal line drawn left to right, such as draw_line(0, 0, 10, 0),
      plots x0, x0 + 1, .., x1 on its row: x1 - x0 + 1 pixels. */
  lemma HorizontalLine(x0: int, x1: int, y: int)
    requires x0 <= x1
    ensures |LinePoints(Segment(x0, y, x1, y))| == x1 - x0 + 1
    ensures forall k :: 0 <= k <= x1 - x0 ==> LinePoints(Segment(x0, y, x1, y))[k] == Point(x0 + k, y)
  {
    HorizontalWalk(Segment(x0, y, x1, y), 0);
  }

  /** One iteration of draw_line's loop away from the target: the walk
      moves on by one point, the one just plotted. */
  lemma LoopStep(s: Segment, i: nat, j: nat, cells: seq<bv8>, cw: nat, ch: nat)
    requires s.InBox(i, j) && !s.Done(i, j)
    requires |cells| == cw * ch
    ensures s.InBox(s.Next(i, j).0, s.Next(i, j).1)
    ensures PlotAll(cells, cw, ch, Walk(s, i, j))
         == PlotAll(Plot(cells, cw, ch, s.At(i, j).x, s.At(i, j).y), cw, ch, Walk(s, s.Next(i, j).0, s.Next(i, j).1))
  {
    Progress(s, i, j);
    var (i', j') := s.Next(i, j);
    var w := Walk(s, i, j);
    assert w == [s.At(i, j)] + Walk(s, i', j');
    assert w[1..] == Walk(s, i', j');
  }

  /** At the target the walk has one point left, the last one plotted. */
  lemma LastStep(s: Segment, i: nat, j: nat, cells: seq<bv8>, cw: nat, ch: nat)
    requires s.InBox(i, j) && s.Done(i, j)
    requires |cells| == cw * ch
    ensures PlotAll(cells, cw, ch, Walk(s, i, j)) == Plot(cells, cw, ch, s.At(i, j).x, s.At(i, j).y)
  {
    assert Walk(s, i, j)[1..] == [];
  }

  /** draw_line: plots the segment's points in order through fb.Set. */
  method DrawLine(fb: Framebuffer, x0: int, y0: int, x1: int, y1: int)
    requires fb.Valid()
    modifies fb.cells
    ensures fb.cells[..] == PlotAll(old(fb.cells[..]), fb.cw, fb.ch, LinePoints(Segment(x0, y0, x1, y1)))
  {
    ghost var s := Segment(x0, y0, x1, y1);
    var dx, sx := Abs(x1 - x0), if x0 < x1 then 1 else -1;
    var dy, sy := -Abs(y1 - y0), if y0 < y1 then 1 else -1;
    var err := dx + dy;
    var x, y := x0, y0;
    ghost var i: nat, j: nat := 0, 0;
    ghost var goal := PlotAll(fb.cells[..], fb.cw, fb.ch, LinePoints(s));
    while true
      invariant s.InBox(i, j)
      invariant x == s.At(i, j).x && y == s.At(i, j).y
      invariant err == s.Err(i, j)
      invariant PlotAll(fb.cells[..], fb.cw, fb.ch, Walk(s, i, j)) == goal
      decreases dx - i - dy - j
    {
      ghost var before := fb.cells[..];
      fb.Set(x, y);
      AtTarget(s, i, j);
      if x == x1 && y == y1 {
        LastStep(s, i, j, before, fb.cw, fb.ch);
        break;
      }
      LoopStep(s, i, j, before, fb.cw, fb.ch);
      x, y, err := Advance(s, i, j, x, y, err, dx, dy, sx, sy);
      i, j := s.Next(i, j).0, s.Next(i, j).1;
    }
  }

  /** The rest of an iteration of draw_line's loop: with e2 = 2 * err, an
      x-step when e2 >= dy and a y-step when e2 <= dx, each moving the point
      and the error term. It moves the walk on to its next position. */
  method Advance(ghost s: Segment, ghost i: nat, ghost j: nat, x: int, y: int, err: int, dx: int, dy: int, sx: int, sy: int)
    returns (x': int, y': int, err': int)
    requires s.InBox(i, j) && !s.Done(i, j)
    requires x == s.At(i, j).x && y == s.At(i, j).y && err == s.Err(i, j)
    requires dx == s.Dx() && dy == s.Dy()
    requires sx == (if s.x0 < s.x1 then 1 else -1) && sy == (if s.y0 < s.y1 then 1 else -1)
    ensures x' == s.At(s.Next(i, j).0, s.Next(i, j).1).x && y' == s.At(s.Next(i, j).0, s.Next(i, j).1).y
    ensures err' == s.Err(s.Next(i, j).0, s.Next(i, j).1)
  {
    ErrStep(s, i, j);
    x', y', err' := x, y, err;
    var e2 := 2 * err;
    if e2 >= dy {
      err' := err' + dy;
      x' := x' + sx;
    }
    if e2 <= dx {
      err' := err' + dx;
      y' := y' + sy;
    }
  }

  /** After draw_line a pixel is lit exactly when it was lit before or it is
      an on-screen point of the segment. */
  lemma DrawnLineLit(cells: seq<bv8>, cw: nat, ch: nat, s: Segment, x: int, y: int)
    requires |cells| == cw * ch
    ensures Lit(PlotAll(cells, cw, ch, LinePoints(s)), cw, ch, x, y) <==>
      Lit(cells, cw, ch, x, y) || (InBounds(cw, ch, x, y) && Point(x, y) in LinePoints(s))
  {
    PlotAllLit(cells, cw, ch, LinePoints(s), x, y);
  }
}

=== FILE: shape.dfy ===
/** The shape of the frame render writes, independent of what the cells
    hold: it starts by homing the cursor, each row ends by resetting the
    colours, and rows are separated by exactly one line feed each. */
module FrameShape {
  import Utf8
  import opened Encoder

  /** No escape of render contains a line feed. */
  lemma EscapeNoNewline(mode: int)
    ensures Newline !in ModeEscape(mode)
  {
  }

  /** No glyph contains a line feed: a space, or three bytes with the top
      bit set. */
  lemma GlyphNoNewline(cell: bv8)
    ensures Newline !in Glyph(cell)
  {
    if cell != 0 {
      Utf8.BrailleBytes(cell);
      var g := Glyph(cell);
      assert g[0] & 0x80 == 0x80 && g[1] & 0x80 == 0x80 && g[2] & 0x80 == 0x80;
    }
  }

  /** The number of occurrences of b in s. */
  function Count(s: seq<bv8>, b: bv8): nat
  {
    if s == [] then 0 else (if s[0] == b then 1 else 0) + Count(s[1..], b)
  }

  /** b is counted zero times exactly when it does not occur in s. */
  lemma {:induction false} CountZero(s: seq<bv8>, b: bv8)
    ensures Count(s, b) == 0 <==> b !in s
  {
    if s != [] {
      CountZero(s[1..], b);
      assert s == [s[0]] + s[1..];
    }
  }

  /** Counting over a concatenation adds the counts of the parts. */
  lemma {:induction false} CountConcat(a: seq<bv8>, c: seq<bv8>, b: bv8)
    ensures Count(a + c, b) == Count(a, b) + Count(c, b)
    decreases |a|
  {
    if a == [] {
      assert a + c == c;
    } else {
      assert (a + c)[1..] == a[1..] + c;
      CountConcat(a[1..], c, b);
    }
  }

  /** The cells of a row hold no line feed. */
  lemma {:induction false} CellsNoNewline(sc: Scene, y: nat, x: nat)
    requires sc.Valid() && y < sc.ch && x <= sc.cw
    ensures Newline !in CellsFrom(sc, y, x)
    decreases sc.cw - x
  {
    if x < sc.cw {
      EscapeNoNewline(sc.Mode(y, x));
      GlyphNoNewline(sc.Cell(y, x));
      CellsNoNewline(sc, y, x + 1);
    }
  }

  /** A row holds one line feed, at its end, except the last row, which
      holds none. */
  lemma RowNewlines(sc: Scene, y: nat)
    requires sc.Valid() && y < sc.ch
    ensures Count(RowBytes(sc, y), Newline) == if y < sc.ch - 1 then 1 else 0
    ensures y < sc.ch - 1 ==> RowBytes(sc, y)[|RowBytes(sc, y)| - 1] == Newline
  {
    var cells := CellsFrom(sc, y, 0);
    var nl: seq<bv8> := if y < sc.ch - 1 then [Newline] else [];
    CellsNoNewline(sc, y, 0);
    CountZero(cells, Newline);
    CountZero(Reset, Newline);
    CountConcat(cells, Reset, Newline);
    CountConcat(cells + Reset, nl, Newline);
    assert Count(nl, Newline) == |nl|;
  }

  /** The concatenation of a list of byte strings. */
  function Flatten(rs: seq<seq<bv8>>): seq<bv8>
  {
    if rs == [] then [] else rs[0] + Flatten(rs[1..])
  }

  /** The rows of the frame, each as RowBytes writes it. */
  function Rows(sc: Scene): (rs: seq<seq<bv8>>)
    requires sc.Valid()
    ensures |rs| == sc.ch && forall y | 0 <= y < sc.ch :: rs[y] == RowBytes(sc, y)
  {
    seq(sc.ch, (y: int) requires 0 <= y < sc.ch && sc.Valid() => RowBytes(sc, y))
  }

  /** Rows y.. are the rows of the frame from y on, written one after the
      other. */
  lemma {:induction false} RowsFlatten(sc: Scene, y: nat)
    requires sc.Valid() && y <= sc.ch
    ensures RowsFrom(sc, y) == Flatten(Rows(sc)[y..])
    decreases sc.ch - y
  {
    if y < sc.ch {
      RowsFlatten(sc, y + 1);
      assert Rows(sc)[y..][1..] == Rows(sc)[y + 1..];
    }
  }

  /** A list whose entries hold one b each, except the last, which holds
      none, holds one b fewer than it has entries. */
  lemma {:induction false} FlattenCount(rs: seq<seq<bv8>>, b: bv8)
    requires |rs| >= 1
    requires forall i | 0 <= i < |rs| - 1 :: Count(rs[i], b) == 1
    requires Count(rs[|rs| - 1], b) == 0
    ensures Count(Flatten(rs), b) == |rs| - 1
    decreases |rs|
  {
    if |rs| == 1 {
      assert Flatten(rs) == rs[0] + [];
      assert rs[0] + [] == rs[0];
    } else {
      FlattenCount(rs[1..], b);
      CountConcat(rs[0], Flatten(rs[1..]), b);
    }
  }

  /** The frame holds ch - 1 line feeds: one between each two rows, none
      after the last, so the terminal never scrolls. */
  lemma FrameNewlines(sc: Scene)
    requires sc.Valid()
    ensures Count(Frame(sc), Newline) == if sc.ch == 0 then 0 else sc.ch - 1
  {
    FrameRows(sc);
    var rs := Rows(sc);
    CountConcat(Home, Flatten(rs), Newline);
    CountZero(Home, Newline);
    if sc.ch == 0 {
      assert Flatten(rs) == [];
    } else {
      forall y | 0 <= y < sc.ch
        ensures Count(rs[y], Newline) == if y < sc.ch - 1 then 1 else 0
      {
        RowNewlines(sc, y);
      }
      FlattenCount(rs, Newline);
    }
  }

  /** The frame starts by moving the cursor home. */
  lemma FrameStartsHome(sc: Scene)
    requires sc.Valid()
    ensures |Frame(sc)| >= 3 && Frame(sc)[..3] == Home
  {
    assert (Home + RowsFrom(sc, 0))[..3] == Home;
  }

  /** s ends with e. */
  predicate EndsIn(s: seq<bv8>, e: seq<bv8>)
  {
    |s| >= |e| && s[|s| - |e|..] == e
  }

  /** A sequence ending with e still ends with e after anything is put
      in front of it. */
  lemma EndsWith(a: seq<bv8>, b: seq<bv8>, e: seq<bv8>)
    requires EndsIn(b, e)
    ensures EndsIn(a + b, e)
  {
    assert (a + b)[|a + b| - |e|..] == b[|b| - |e|..];
  }

  /** A list whose last entry ends with e flattens to a sequence ending
      with e. */
  lemma {:induction false} FlattenEndsWith(rs: seq<seq<bv8>>, e: seq<bv8>)
    requires |rs| >= 1 && EndsIn(rs[|rs| - 1], e)
    ensures EndsIn(Flatten(rs), e)
    decreases |rs|
  {
    if |rs| == 1 {
      assert Flatten(rs) == rs[0] + [];
      assert rs[0] + [] == rs[0];
    } else {
      FlattenEndsWith(rs[1..], e);
      EndsWith(rs[0], Flatten(rs[1..]), e);
    }
  }

  /** Every row ends with the colour reset, followed by the line feed on
      every row but the last. */
  lemma RowEndsReset(sc: Scene, y: nat)
    requires sc.Valid() && y < sc.ch
    ensures EndsIn(RowBytes(sc, y), Reset + if y < sc.ch - 1 then [Newline] else [])
  {
    var tail := Reset + if y < sc.ch - 1 then [Newline] else [];
    Assoc(CellsFrom(sc, y, 0), Reset, if y < sc.ch - 1 then [Newline] else []);
    assert EndsIn(tail, tail);
    EndsWith(CellsFrom(sc, y, 0), tail, tail);
  }

  /** The frame is the home escape followed by its rows. */
  lemma FrameRows(sc: Scene)
    requires sc.Valid()
    ensures Frame(sc) == Home + Flatten(Rows(sc))
  {
    RowsFlatten(sc, 0);
    assert Rows(sc)[0..] == Rows(sc);
  }

  /** A frame with at least one row leaves the terminal in the default
      colours: its last bytes are the reset of the last row. */
  lemma FrameEndsReset(sc: Scene)
    requires sc.Valid() && sc.ch >= 1
    ensures EndsIn(Frame(sc), Reset)
  {
    FrameRows(sc);
    RowEndsReset(sc, sc.ch - 1);
    assert Reset + [] == Reset;
    FlattenEndsWith(Rows(sc), Reset);
    EndsWith(Home, Flatten(Rows(sc)), Reset);
  }
}

=== FILE: terminal.dfy ===
/** A small model of the terminal the frame is written to: a byte-at-a-time
    reader of the control sequences the frame uses (CSI ... m for colours,
    CSI ... H for the cursor), of line feeds and of UTF-8 text, painting
    characters into a screen. It states what the frame means: every cell
    ends up showing its glyph in the colours of its mode, although render
    writes a colour escape only where the mode changes. */
module Terminal {
  import Utf8
  import Floor
  import opened Encoder

  datatype Colour = Default | Named(code: int) | Palette(index: int)

  /** What one screen position shows: a code point and its colours. */
  datatype Paint = Paint(glyph: int, fg: Colour, bg: Colour)

  /** Where the reader is within the byte stream: plain text, after ESC,
      inside a CSI sequence (the parameters finished so far and the one
      being read), or inside a UTF-8 sequence (continuation bytes still
      due and the code point bits so far). */
  datatype Phase = Ground | Escape | Csi(params: seq<int>, current: int) | Utf8Rest(due: nat, bits: int)

  datatype Term = Term(phase: Phase, fg: Colour, bg: Colour, row: int, col: int, screen: map<(int, int), Paint>)

  /** The byte values of a byte string. */
  function Values(s: seq<bv8>): (r: seq<int>)
    ensures |r| == |s|
  {
    seq(|s|, i requires 0 <= i < |s| => s[i] as int)
  }

  lemma ValuesConcat(a: seq<bv8>, b: seq<bv8>)
    ensures Values(a + b) == Values(a) + Values(b)
  {
  }

  /** SGR: apply the parameters of CSI ... m left to right. */
  function Sgr(ps: seq<int>, fg: Colour, bg: Colour): (r: (Colour, Colour))
    decreases |ps|
  {
    if ps == [] then (fg, bg)
    else if ps[0] == 0 then Sgr(ps[1..], Default, Default)
    else if 30 <= ps[0] <= 37 || 90 <= ps[0] <= 97 then Sgr(ps[1..], Named(ps[0]), bg)
    else if ps[0] == 39 then Sgr(ps[1..], Default, bg)
    else if 40 <= ps[0] <= 47 || 100 <= ps[0] <= 107 then Sgr(ps[1..], fg, Named(ps[0]))
    else if ps[0] == 49 then Sgr(ps[1..], fg, Default)
    else if ps[0] == 38 && |ps| >= 3 && ps[1] == 5 then Sgr(ps[3..], Palette(ps[2]), bg)
    else if ps[0] == 48 && |ps| >= 3 && ps[1] == 5 then Sgr(ps[3..], fg, Palette(ps[2]))
    else Sgr(ps[1..], fg, bg)
  }

  /** A CUP parameter: missing or 0 means 1. */
  function CupParam(ps: seq<int>, i: nat): (n: int)
    ensures n >= 1 || (i < |ps| && n == ps[i])
  {
    if i < |ps| && ps[i] != 0 then ps[i] else 1
  }

  /** Paint code point g at the cursor in the current colours and move
      right. */
  function Put(t: Term, g: int): (r: Term)
    ensures r.screen == t.screen[(t.row, t.col) := Paint(g, t.fg, t.bg)]
    ensures r.phase == t.phase && r.row == t.row && r.col == t.col + 1 && r.fg == t.fg && r.bg == t.bg
  {
    t.(screen := t.screen[(t.row, t.col) := Paint(g, t.fg, t.bg)], col := t.col + 1)
  }

  /** Read one byte. A line feed moves to the start of the next line (the
      terminal's output processing turns it into CR LF); bytes this model
      does not know are dropped. */
  function Step(t: Term, b: int): Term
  {
    match t.phase
    case Ground =>
      if b == 0x1B then t.(phase := Escape)
      else if b == 0x0A then t.(row := t.row + 1, col := 0)
      else if 0x20 <= b < 0x7F then Put(t, b)
      else if 0xE0 <= b < 0xF0 then t.(phase := Utf8Rest(2, b - 0xE0))
      else t
    case Escape =>
      if b == 0x5B then t.(phase := Csi([], 0)) else t.(phase := Ground)
    case Csi(ps, n) =>
      if 0x30 <= b <= 0x39 then t.(phase := Csi(ps, 10 * n + (b - 0x30)))
      else if b == 0x3B then t.(phase := Csi(ps + [n], 0))
      else if b == 0x6D then
        var c := Sgr(ps + [n], t.fg, t.bg);
        t.(phase := Ground, fg := c.0, bg := c.1)
      else if b == 0x48 then
        t.(phase := Ground, row := CupParam(ps + [n], 0) - 1, col := CupParam(ps + [n], 1) - 1)
      else t.(phase := Ground)
    case Utf8Rest(due, bits) =>
      if 0x80 <= b < 0xC0 then
        var bits' := 64 * bits + (b - 0x80);
        if due <= 1 then Put(t.(phase := Ground), bits') else t.(phase := Utf8Rest(due - 1, bits'))
      else t.(phase := Ground)
  }

  /** Read a byte stream, first byte first. */
  function Run(s: seq<int>, t: Term): Term
    decreases |s|
  {
    if s == [] then t else Run(s[1..], Step(t, s[0]))
  }

  /** Reading a concatenation reads one part after the other. */
  lemma {:induction false} RunConcat(a: seq<int>, b: seq<int>, t: Term)
    ensures Run(a + b, t) == Run(b, Run(a, t))
    decreases |a|
  {
    if a == [] {
      assert a + b == b;
    } else {
      assert (a + b)[1..] == a[1..] + b;
      RunConcat(a[1..], b, Step(t, a[0]));
    }
  }

  /** Reading the byte strings a and then b. */
  lemma ShowConcat(a: seq<bv8>, b: seq<bv8>, t: Term)
    ensures Run(Values(a + b), t) == Run(Values(b), Run(Values(a), t))
  {
    ValuesConcat(a, b);
    RunConcat(Values(a), Values(b), t);
  }

  /** ESC [ 0 m: default colours. */
  lemma ResetEffect(t: Term)
    requires t.phase == Ground
    ensures Run(Values(Reset), t) == t.(fg := Default, bg := Default)
  {
    assert Values(Reset) == [0x1B, 0x5B, 0x30, 0x6D];
    assert Run([0x1B, 0x5B, 0x30, 0x6D], t) == Run([0x5B, 0x30, 0x6D], t.(phase := Escape));
    assert Run([0x5B, 0x30, 0x6D], t.(phase := Escape)) == Run([0x30, 0x6D], t.(phase := Csi([], 0)));
    assert Run([0x30, 0x6D], t.(phase := Csi([], 0))) == Run([0x6D], t.(phase := Csi([], 0)));
    assert [] + [0] == [0];
    assert Sgr([0], t.fg, t.bg) == (Default, Default);
    assert Step(t.(phase := Csi([], 0)), 0x6D) == t.(fg := Default, bg := Default);
  }

  /** ESC [ 48 ; 5 ; 236 m: the dark grey background. */
  lemma DarkTileEffect(t: Term)
    requires t.phase == Ground
    ensures Run(Values(DarkTile), t) == t.(bg := Palette(236))
  {
    assert Values(DarkTile) == [0x1B, 0x5B] + [0x34, 0x38, 0x3B, 0x35, 0x3B] + [0x32, 0x33, 0x36, 0x6D];
    PaletteBackground([0x32, 0x33, 0x36, 0x6D], t);
    var u := t.(phase := Csi([48, 5], 0));
    assert Run([0x32, 0x33, 0x36, 0x6D], u) == Run([0x33, 0x36, 0x6D], u.(phase := Csi([48, 5], 2)));
    assert Run([0x33, 0x36, 0x6D], u.(phase := Csi([48, 5], 2))) == Run([0x36, 0x6D], u.(phase := Csi([48, 5], 23)));
    assert Run([0x36, 0x6D], u.(phase := Csi([48, 5], 23))) == Run([0x6D], u.(phase := Csi([48, 5], 236)));
    assert [48, 5] + [236] == [48, 5, 236];
    assert Sgr([48, 5, 236], t.fg, t.bg) == (t.fg, Palette(236));
  }

  /** ESC [ 48 ; 5 ; 252 m: the light grey background. */
  lemma LightTileEffect(t: Term)
    requires t.phase == Ground
    ensures Run(Values(LightTile), t) == t.(bg := Palette(252))
  {
    assert Values(LightTile) == [0x1B, 0x5B] + [0x34, 0x38, 0x3B, 0x35, 0x3B] + [0x32, 0x35, 0x32, 0x6D];
    PaletteBackground([0x32, 0x35, 0x32, 0x6D], t);
    var u := t.(phase := Csi([48, 5], 0));
    assert Run([0x32, 0x35, 0x32, 0x6D], u) == Run([0x35, 0x32, 0x6D], u.(phase := Csi([48, 5], 2)));
    assert Run([0x35, 0x32, 0x6D], u.(phase := Csi([48, 5], 2))) == Run([0x32, 0x6D], u.(phase := Csi([48, 5], 25)));
    assert Run([0x32, 0x6D], u.(phase := Csi([48, 5], 25))) == Run([0x6D], u.(phase := Csi([48, 5], 252)));
    assert [48, 5] + [252] == [48, 5, 252];
    assert Sgr([48, 5, 252], t.fg, t.bg) == (t.fg, Palette(252));
  }

  /** ESC [ 48 ; 5 ; reads the first two parameters of a 256-colour
      background. */
  lemma PaletteBackground(rest: seq<int>, t: Term)
    requires t.phase == Ground
    ensures Run([0x1B, 0x5B] + [0x34, 0x38, 0x3B, 0x35, 0x3B] + rest, t) == Run(rest, t.(phase := Csi([48, 5], 0)))
  {
    var head: seq<int> := [0x1B, 0x5B, 0x34, 0x38, 0x3B, 0x35, 0x3B];
    assert [0x1B, 0x5B] + [0x34, 0x38, 0x3B, 0x35, 0x3B] + rest == head + rest;
    RunConcat(head, rest, t);
    assert Run(head, t) == Run([0x5B, 0x34, 0x38, 0x3B, 0x35, 0x3B], t.(phase := Escape));
    assert Run([0x5B, 0x34, 0x38, 0x3B, 0x35, 0x3B], t.(phase := Escape)) == Run([0x34, 0x38, 0x3B, 0x35, 0x3B], t.(phase := Csi([], 0)));
    assert Run([0x34, 0x38, 0x3B, 0x35, 0x3B], t.(phase := Csi([], 0))) == Run([0x38, 0x3B, 0x35, 0x3B], t.(phase := Csi([], 4)));
    assert Run([0x38, 0x3B, 0x35, 0x3B], t.(phase := Csi([], 4))) == Run([0x3B, 0x35, 0x3B], t.(phase := Csi([], 48)));
    assert [] + [48] == [48];
    assert Run([0x3B, 0x35, 0x3B], t.(phase := Csi([], 48))) == Run([0x35, 0x3B], t.(phase := Csi([48], 0)));
    assert Run([0x35, 0x3B], t.(phase := Csi([48], 0))) == Run([0x3B], t.(phase := Csi([48], 5)));
    assert [48] + [5] == [48, 5];
  }

  /** ESC [ opens a control sequence with no parameters read yet. */
  lemma CsiStart(rest: seq<int>, t: Term)
    requires t.phase == Ground
    ensures Run([0x1B, 0x5B] + rest, t) == Run(rest, t.(phase := Csi([], 0)))
  {
    assert ([0x1B, 0x5B] + rest)[1..] == [0x5B] + rest;
    assert ([0x5B] + rest)[1..] == rest;
  }

  /** ESC [ 0 ; 96 m: default colours, then the bright cyan foreground. */
  lemma DotsEffect(t: Term)
    requires t.phase == Ground
    ensures Run(Values(Dots), t) == t.(fg := Named(96), bg := Default)
  {
    assert Values(Dots) == [0x1B, 0x5B] + [0x30, 0x3B, 0x39, 0x36, 0x6D];
    CsiStart([0x30, 0x3B, 0x39, 0x36, 0x6D], t);
    var u := t.(phase := Csi([], 0));
    assert Run([0x30, 0x3B, 0x39, 0x36, 0x6D], u) == Run([0x3B, 0x39, 0x36, 0x6D], u);
    assert [] + [0] == [0];
    assert Run([0x3B, 0x39, 0x36, 0x6D], u) == Run([0x39, 0x36, 0x6D], u.(phase := Csi([0], 0)));
    assert Run([0x39, 0x36, 0x6D], u.(phase := Csi([0], 0))) == Run([0x36, 0x6D], u.(phase := Csi([0], 9)));
    assert Run([0x36, 0x6D], u.(phase := Csi([0], 9))) == Run([0x6D], u.(phase := Csi([0], 96)));
    assert [0] + [96] == [0, 96];
    assert Sgr([0, 96], t.fg, t.bg) == (Named(96), Default);
  }

  /** ESC [ H: the cursor to row 1, column 1, the origin here. */
  lemma HomeEffect(t: Term)
    requires t.phase == Ground
    ensures Run(Values(Home), t) == t.(row := 0, col := 0)
  {
    assert Values(Home) == [0x1B, 0x5B, 0x48];
    assert Run([0x1B, 0x5B, 0x48], t) == Run([0x5B, 0x48], t.(phase := Escape));
    assert Run([0x5B, 0x48], t.(phase := Escape)) == Run([0x48], t.(phase := Csi([], 0)));
    assert [] + [0] == [0];
    assert CupParam([0], 0) == 1 && CupParam([0], 1) == 1;
  }

  /** The colours each mode stands for: sky in the default colours, the
      two floor tiles on a dark and a light grey background, dots in
      bright cyan on the default background. A floor tile says nothing of
      the foreground, which a space does not show. */
  predicate Looks(mode: int, fg: Colour, bg: Colour)
  {
    match mode
    case 0 => fg == Default && bg == Default
    case 1 => bg == Palette(236)
    case 2 => bg == Palette(252)
    case 3 => fg == Named(96) && bg == Default
    case _ => false
  }

  /** Each of render's four escapes, read in plain-text state, sets the
      colours of its mode whatever they were before, and nothing else. */
  lemma EscapeEffect(mode: int, t: Term)
    requires t.phase == Ground && 0 <= mode <= 3
    ensures var r := Run(Values(ModeEscape(mode)), t);
      r.phase == Ground && r.row == t.row && r.col == t.col && r.screen == t.screen && Looks(mode, r.fg, r.bg)
  {
    match mode
    case 0 => ResetEffect(t);
    case 1 => DarkTileEffect(t);
    case 2 => LightTileEffect(t);
    case 3 => DotsEffect(t);
  }

  /** The character a cell shows: its braille pattern U+2800 + cell, or a
      space. */
  function GlyphPoint(cell: bv8): (cp: int)
    ensures cell != 0 ==> cp == Utf8.BrailleCodePoint(cell) as int
    ensures cell == 0 ==> cp == 0x20
  {
    if cell != 0 then 0x2800 + cell as int else 0x20
  }

  /** The byte values of a braille glyph. */
  lemma GlyphValues(cell: bv8)
    requires cell != 0
    ensures Values(Glyph(cell)) == [0xE2, 0xA0 + cell as int / 64, 0x80 + cell as int % 64]
  {
    Utf8.BrailleBytes(cell);
    HighBits(cell);
    LowBits(cell);
  }

  /** The second byte's low bits are the top two bits of the cell. */
  lemma HighBits(b: bv8)
    ensures (0xA0 | (b >> 6)) as int == 0xA0 + b as int / 64
  {
    assert b >> 6 == b / 64;
    assert 0xA0 | (b / 64) == 0xA0 + b / 64;
  }

  /** The third byte's low bits are the bottom six bits of the cell. */
  lemma LowBits(b: bv8)
    ensures (0x80 | (b & 0x3F)) as int == 0x80 + b as int % 64
  {
    assert b & 0x3F == b % 64;
    assert 0x80 | (b % 64) == 0x80 + b % 64;
  }

  /** A cell's glyph, read in plain-text state, paints its character at
      the cursor in the current colours and moves the cursor right. */
  lemma GlyphEffect(cell: bv8, t: Term)
    requires t.phase == Ground
    ensures Run(Values(Glyph(cell)), t) == Put(t, GlyphPoint(cell))
  {
    if cell == 0 {
      assert Values(Glyph(cell)) == [0x20];
      assert Run([0x20], t) == Step(t, 0x20);
    } else {
      GlyphValues(cell);
      BrailleEffect(cell as int, t);
      assert GlyphPoint(cell) == 0x2800 + cell as int;
    }
  }

  /** The three UTF-8 bytes of U+2800 + c paint that character. */
  lemma BrailleEffect(c: int, t: Term)
    requires 0 <= c < 256 && t.phase == Ground
    ensures Run([0xE2, 0xA0 + c / 64, 0x80 + c % 64], t) == Put(t, 0x2800 + c)
  {
    var u1 := t.(phase := Utf8Rest(2, 2));
    var u2 := t.(phase := Utf8Rest(1, 160 + c / 64));
    RunThree(0xE2, 0xA0 + c / 64, 0x80 + c % 64, t);
    assert Step(t, 0xE2) == u1;
    assert Step(u1, 0xA0 + c / 64) == u2;
    assert 64 * (160 + c / 64) + c % 64 == 0x2800 + c;
    assert Step(u2, 0x80 + c % 64) == Put(t, 0x2800 + c);
  }

  /** Reading three bytes is three steps. */
  lemma RunThree(a: int, b: int, c: int, t: Term)
    ensures Run([a, b, c], t) == Step(Step(Step(t, a), b), c)
  {
    assert [a, b, c][1..] == [b, c];
    assert [b, c][1..] == [c];
    var u := Step(Step(t, a), b);
    assert Run([b, c], Step(t, a)) == Run([c], u);
    assert Run([c], u) == Step(u, c);
  }

  /** Sky, tiles and dots only: every floor value is one of render's
      modes. */
  predicate FloorModes(sc: Scene)
  {
    forall k :: 0 <= k < |sc.floor| ==> sc.floor[k] <= 3
  }

  /** The map compute_floor lays out holds only sky and tiles, so any
      framebuffer drawn over it is a scene of render's four modes. */
  lemma LayoutModes(cells: seq<bv8>, cw: nat, ch: nat, tileOdd: (int, int) -> bool)
    requires |cells| == cw * ch
    ensures forall k | 0 <= k < cw * ch :: Floor.Layout(cw, ch, tileOdd)[k] <= 2
    ensures FloorModes(Scene(cells, Floor.Layout(cw, ch, tileOdd), cw, ch))
  {
    forall k | 0 <= k < cw * ch
      ensures Floor.Layout(cw, ch, tileOdd)[k] <= 2
    {
      Floor.LayoutValues(cw, ch, tileOdd, k);
    }
  }

  /** What screen position (y, x) must show for cell (y, x) of the scene. */
  predicate Shows(p: Paint, sc: Scene, y: nat, x: nat)
    requires sc.Valid() && y < sc.ch && x < sc.cw
  {
    p.glyph == GlyphPoint(sc.Cell(y, x)) && Looks(sc.Mode(y, x), p.fg, p.bg)
  }

  /** Every cell before (y, x), in row-major order, is on the screen as it
      should be. */
  predicate ShownBefore(screen: map<(int, int), Paint>, sc: Scene, y: nat, x: nat)
    requires sc.Valid()
  {
    forall y': nat, x': nat :: y' < sc.ch && x' < sc.cw && (y' < y || (y' == y && x' < x)) ==>
      ShownAt(screen, sc, y', x')
  }

  /** Screen position (y, x) shows cell (y, x) of the scene. */
  predicate ShownAt(screen: map<(int, int), Paint>, sc: Scene, y: nat, x: nat)
    requires sc.Valid() && y < sc.ch && x < sc.cw
  {
    (y, x) in screen && Shows(screen[(y, x)], sc, y, x)
  }

  /** Painting cell (y, x) as it should be extends the painted prefix by
      that cell. */
  lemma ShownPaint(screen: map<(int, int), Paint>, sc: Scene, y: nat, x: nat, p: Paint)
    requires sc.Valid() && y < sc.ch && x < sc.cw
    requires ShownBefore(screen, sc, y, x) && Shows(p, sc, y, x)
    ensures ShownBefore(screen[(y, x) := p], sc, y, x + 1)
  {
    var screen' := screen[(y, x) := p];
    forall y': nat, x': nat | y' < sc.ch && x' < sc.cw && (y' < y || (y' == y && x' < x + 1))
      ensures ShownAt(screen', sc, y', x')
    {
      if (y', x') != (y, x) {
        assert ShownAt(screen, sc, y', x');
      }
    }
  }

  /** A painted row is a painted prefix up to the start of the next row. */
  lemma ShownNextRow(screen: map<(int, int), Paint>, sc: Scene, y: nat)
    requires sc.Valid() && ShownBefore(screen, sc, y, sc.cw)
    ensures ShownBefore(screen, sc, y + 1, 0)
  {
    forall y': nat, x': nat | y' < sc.ch && x' < sc.cw && y' < y + 1
      ensures ShownAt(screen, sc, y', x')
    {
      assert y' < y || (y' == y && x' < sc.cw);
    }
  }

  /** With only sky, tiles and dots in the floor map every mode is 0..3. */
  lemma ModeRange(sc: Scene, y: nat, x: nat)
    requires sc.Valid() && FloorModes(sc) && y < sc.ch && x < sc.cw
    ensures 0 <= sc.Mode(y, x) <= 3
  {
    assert sc.floor[sc.Index(y, x)] <= 3;
  }

  /** One cell of the inner loop, read with the cursor on it: when prev is
      a mode, the colours on the terminal are that mode's; afterwards they
      are the cell's mode's, and the cell is painted. */
  lemma CellShown(sc: Scene, y: nat, x: nat, prev: int, t: Term)
    requires sc.Valid() && FloorModes(sc) && y < sc.ch && x < sc.cw
    requires t.phase == Ground && t.row == y && t.col == x
    requires prev == -1 || Looks(prev, t.fg, t.bg)
    requires ShownBefore(t.screen, sc, y, x)
    ensures var r := Run(Values((if sc.Mode(y, x) != prev then ModeEscape(sc.Mode(y, x)) else []) + Glyph(sc.Cell(y, x))), t);
      && r.phase == Ground && r.row == y && r.col == x + 1
      && Looks(sc.Mode(y, x), r.fg, r.bg)
      && ShownBefore(r.screen, sc, y, x + 1)
  {
    var mode := sc.Mode(y, x);
    ModeRange(sc, y, x);
    var e: seq<bv8> := if mode != prev then ModeEscape(mode) else [];
    ShowConcat(e, Glyph(sc.Cell(y, x)), t);
    var u := Run(Values(e), t);
    if mode != prev {
      EscapeEffect(mode, t);
    } else {
      assert Values(e) == [];
    }
    GlyphEffect(sc.Cell(y, x), u);
    ShownPaint(t.screen, sc, y, x, Paint(GlyphPoint(sc.Cell(y, x)), u.fg, u.bg));
  }

  /** The rest of the row from cell x on, read with the cursor on cell x. */
  lemma {:induction false} EmitShown(sc: Scene, y: nat, x: nat, prev: int, t: Term)
    requires sc.Valid() && FloorModes(sc) && y < sc.ch && x <= sc.cw
    requires t.phase == Ground && t.row == y && t.col == x
    requires prev == -1 || Looks(prev, t.fg, t.bg)
    requires ShownBefore(t.screen, sc, y, x)
    ensures var r := Run(Values(Emit(sc, y, x, prev)), t);
      r.phase == Ground && r.row == y && r.col == sc.cw && ShownBefore(r.screen, sc, y, sc.cw)
    decreases sc.cw - x
  {
    if x == sc.cw {
      assert Values(Emit(sc, y, x, prev)) == [];
    } else {
      var mode := sc.Mode(y, x);
      var cell := (if mode != prev then ModeEscape(mode) else []) + Glyph(sc.Cell(y, x));
      ShowConcat(cell, Emit(sc, y, x + 1, mode), t);
      CellShown(sc, y, x, prev, t);
      EmitShown(sc, y, x + 1, mode, Run(Values(cell), t));
    }
  }

  /** A whole row, read with the cursor at its start: all its cells are
      painted, the colours are back to the default, and the cursor is at
      the start of the next row. */
  lemma RowShown(sc: Scene, y: nat, t: Term)
    requires sc.Valid() && FloorModes(sc) && y < sc.ch
    requires t.phase == Ground && t.row == y && t.col == 0
    requires ShownBefore(t.screen, sc, y, 0)
    ensures var r := Run(Values(RowBytes(sc, y)), t);
      && r.phase == Ground && r.fg == Default && r.bg == Default
      && ShownBefore(r.screen, sc, y + 1, 0)
      && (y < sc.ch - 1 ==> r.row == y + 1 && r.col == 0)
  {
    var cells := CellsFrom(sc, y, 0);
    var nl: seq<bv8> := if y < sc.ch - 1 then [Newline] else [];
    EmitIsCells(sc, y, 0, -1);
    EmitShown(sc, y, 0, -1, t);
    ShownNextRow(Run(Values(cells), t).screen, sc, y);
    ShowConcat(cells + Reset, nl, t);
    ShowConcat(cells, Reset, t);
    ResetEffect(Run(Values(cells), t));
    if y < sc.ch - 1 {
      assert Values(nl) == [0x0A];
    } else {
      assert Values(nl) == [];
    }
  }

  /** Reading rows y.. is reading row y, then rows y+1.. . */
  lemma RowsSplit(sc: Scene, y: nat, t: Term)
    requires sc.Valid() && y < sc.ch
    ensures Run(Values(RowsFrom(sc, y)), t) == Run(Values(RowsFrom(sc, y + 1)), Run(Values(RowBytes(sc, y)), t))
  {
    ShowConcat(RowBytes(sc, y), RowsFrom(sc, y + 1), t);
  }

  /** Row y read, with what is left to read after it. */
  lemma RowStep(sc: Scene, y: nat, t: Term) returns (u: Term)
    requires sc.Valid() && FloorModes(sc) && y < sc.ch
    requires t.phase == Ground && t.row == y && t.col == 0
    requires ShownBefore(t.screen, sc, y, 0)
    ensures Run(Values(RowsFrom(sc, y)), t) == Run(Values(RowsFrom(sc, y + 1)), u)
    ensures u.phase == Ground && u.fg == Default && u.bg == Default
    ensures ShownBefore(u.screen, sc, y + 1, 0)
    ensures y < sc.ch - 1 ==> u.row == y + 1 && u.col == 0
  {
    RowsSplit(sc, y, t);
    RowShown(sc, y, t);
    u := Run(Values(RowBytes(sc, y)), t);
  }

  /** What the frame means: read from plain-text state, whatever the
      colours, cursor and screen before it, it leaves every cell (y, x) of
      the scene at screen row y, column x, showing its glyph in its mode's
      colours, and the colours back at the default. */
  lemma FrameDisplays(sc: Scene, t: Term)
    requires sc.Valid() && FloorModes(sc)
    requires t.phase == Ground
    ensures var r := Run(Values(Frame(sc)), t);
      && r.phase == Ground
      && (forall y: nat, x: nat :: y < sc.ch && x < sc.cw ==> ShownAt(r.screen, sc, y, x))
      && (sc.ch > 0 ==> r.fg == Default && r.bg == Default)
  {
    ShowConcat(Home, RowsFrom(sc, 0), t);
    HomeEffect(t);
    var u := Run(Values(Home), t);
    var y := 0;
    while y < sc.ch
      invariant y <= sc.ch
      invariant Run(Values(Frame(sc)), t) == Run(Values(RowsFrom(sc, y)), u)
      invariant u.phase == Ground && (y < sc.ch ==> u.row == y && u.col == 0)
      invariant ShownBefore(u.screen, sc, y, 0)
      invariant y > 0 ==> u.fg == Default && u.bg == Default
    {
      u := RowStep(sc, y, u);
      y := y + 1;
    }
    assert Values(RowsFrom(sc, y)) == [];
  }
}

=== FILE: topology.dfy ===
/** The shape's tables: the 14 vertices of a tetrakis hexahedron (a cube
    with a pyramid on each face) and its 36 edges. Coordinates are kept in
    half units so that they are integers: the cube corners sit at +-1,
    written 2, and the pyramid tips at distance 1.5, written 3. */
module Topology {

  datatype Vec3 = Vec3(x: int, y: int, z: int)

  /** The coordinate of v along axis a (0 = x, 1 = y, 2 = z). */
  function Coord(v: Vec3, a: int): int
    requires 0 <= a < 3
  {
    if a == 0 then v.x else if a == 1 then v.y else v.z
  }

  const NVerts := 14
  const NEdges := 36

  /** base_verts in half units: corners 0..7 in the order (+,+,+),
      (+,+,-), (+,-,+), .., (-,-,-); tips 8..13 on +x, -x, +y, -y, +z, -z. */
  function BaseVerts(): seq<Vec3>
  {
    [
      Vec3(2, 2, 2), Vec3(2, 2, -2), Vec3(2, -2, 2), Vec3(2, -2, -2),
      Vec3(-2, 2, 2), Vec3(-2, 2, -2), Vec3(-2, -2, 2), Vec3(-2, -2, -2),
      Vec3(3, 0, 0), Vec3(-3, 0, 0),
      Vec3(0, 3, 0), Vec3(0, -3, 0),
      Vec3(0, 0, 3), Vec3(0, 0, -3)
    ]
  }

  /** edges: the 12 cube edges, then each tip joined to the four corners
      of its face. */
  function Edges(): seq<(int, int)>
  {
    [
      (0, 1), (0, 2), (0, 4), (1, 3), (1, 5), (2, 3), (2, 6), (3, 7), (4, 5), (4, 6), (5, 7), (6, 7),
      (8, 0), (8, 1), (8, 2), (8, 3),
      (9, 4), (9, 5), (9, 6), (9, 7),
      (10, 0), (10, 1), (10, 4), (10, 5),
      (11, 2), (11, 3), (11, 6), (11, 7),
      (12, 0), (12, 2), (12, 4), (12, 6),
      (13, 1), (13, 3), (13, 5), (13, 7)
    ]
  }

  predicate IsCorner(v: int) { 0 <= v < 8 }
  predicate IsTip(v: int) { 8 <= v < NVerts }

  /** The axis and the sign of the face that tip t caps: 8 and 9 on x,
      10 and 11 on y, 12 and 13 on z, the even one on the positive side. */
  function TipAxis(t: int): (a: int)
    requires IsTip(t)
    ensures 0 <= a < 3
  {
    (t - 8) / 2
  }

  function TipSign(t: int): (s: int)
    requires IsTip(t)
    ensures s == 1 || s == -1
  {
    if t % 2 == 0 then 1 else -1
  }

  /** Corner c lies on the face that tip t caps. */
  predicate OnFace(c: int, t: int)
    requires IsCorner(c) && IsTip(t)
  {
    Coord(BaseVerts()[c], TipAxis(t)) == 2 * TipSign(t)
  }

  /** The number of coordinates in which u and w differ. */
  function Differences(u: Vec3, w: Vec3): (n: nat)
    ensures n <= 3
  {
    (if u.x != w.x then 1 else 0) + (if u.y != w.y then 1 else 0) + (if u.z != w.z then 1 else 0)
  }

  /** The corners are the eight sign choices of (+-1, +-1, +-1) and the
      tips sit at 1.5 on one axis and 0 on the others. */
  lemma VertexPositions()
    ensures |BaseVerts()| == NVerts
    ensures forall c | 0 <= c < 8 :: forall a | 0 <= a < 3 :: Coord(BaseVerts()[c], a) in {2, -2}
    ensures forall c, d | 0 <= c < d < 8 :: BaseVerts()[c] != BaseVerts()[d]
    ensures forall t | IsTip(t) :: forall a | 0 <= a < 3 ::
      Coord(BaseVerts()[t], a) == if a == TipAxis(t) then 3 * TipSign(t) else 0
  {
  }

  /** Every edge joins two different vertices, both indices of base_verts. */
  lemma EdgesInRange()
    ensures |Edges()| == NEdges
    ensures forall k | 0 <= k < NEdges :: 0 <= Edges()[k].0 < NVerts && 0 <= Edges()[k].1 < NVerts && Edges()[k].0 != Edges()[k].1
  {
  }

  /** The first 12 edges are the cube's: each joins two corners that
      differ along exactly one axis. */
  lemma CubeEdges()
    ensures forall k | 0 <= k < 12 ::
      IsCorner(Edges()[k].0) && IsCorner(Edges()[k].1) && Differences(BaseVerts()[Edges()[k].0], BaseVerts()[Edges()[k].1]) == 1
  {
  }

  /** The other 24 join a tip to a corner of the face that tip caps. */
  lemma TipEdges()
    ensures forall k | 12 <= k < NEdges ::
      IsTip(Edges()[k].0) && IsCorner(Edges()[k].1) && OnFace(Edges()[k].1, Edges()[k].0)
  {
  }

  /** A tip is joined only to corners of its face. */
  lemma TipJoinsOnlyItsFace(t: int, c: int)
    requires IsTip(t) && IsCorner(c)
    ensures (t, c) in Edges() ==> OnFace(c, t)
  {
    CubeEdges();
    TipEdges();
  }

  /** A tip is joined to every corner of its face. */
  lemma TipJoinsAllItsFace(t: int, c: int)
    requires IsTip(t) && IsCorner(c)
    ensures OnFace(c, t) ==> (t, c) in Edges()
  {
  }

  /** The corners of the face that tip t caps. */
  function FaceCorners(t: int): set<int>
    requires IsTip(t)
  {
    set c | 0 <= c < 8 && OnFace(c, t)
  }

  /** The same corners listed by hand, four per face. */
  function FaceTable(t: int): (face: set<int>)
    requires IsTip(t)
    ensures |face| == 4
  {
    if t == 8 then {0, 1, 2, 3} else if t == 9 then {4, 5, 6, 7}
    else if t == 10 then {0, 1, 4, 5} else if t == 11 then {2, 3, 6, 7}
    else if t == 12 then {0, 2, 4, 6} else {1, 3, 5, 7}
  }

  /** Each face has exactly four corners, so with TipJoinsOnlyItsFace and
      TipJoinsAllItsFace each tip is joined to exactly four corners. */
  lemma FourCornersPerFace(t: int)
    requires IsTip(t)
    ensures FaceCorners(t) == FaceTable(t)
    ensures |FaceCorners(t)| == 4
  {
    forall c | 0 <= c < 8
      ensures OnFace(c, t) <==> c in FaceTable(t)
    {
      if c < 4 {
        if c < 2 {} else {}
      } else {
        if c < 6 {} else {}
      }
    }
  }

  /** Two corners are joined exactly when they are neighbours on the cube. */
  lemma CornersJoinedAlongEdges(c: int, d: int)
    requires IsCorner(c) && IsCorner(d)
    ensures (c, d) in Edges() ==> Differences(BaseVerts()[c], BaseVerts()[d]) == 1
    ensures Differences(BaseVerts()[c], BaseVerts()[d]) == 1 ==> (c, d) in Edges() || (d, c) in Edges()
  {
    CubeEdges();
    TipEdges();
  }

  /** No two cube edges join the same corners, in either order. */
  lemma CubeEdgesDistinct()
    ensures forall k, k' | 0 <= k < k' < 12 :: Edges()[k] != Edges()[k'] && Edges()[k] != (Edges()[k'].1, Edges()[k'].0)
  {
  }

  /** No two tip edges join the same tip and corner. */
  lemma TipEdgesDistinct()
    ensures forall k, k' | 12 <= k < k' < NEdges :: Edges()[k] != Edges()[k']
  {
  }

  /** No pair of vertices is joined twice, in either order. */
  lemma NoRepeatedEdge(k: nat, k': nat)
    requires k < k' < NEdges
    ensures Edges()[k] != Edges()[k'] && Edges()[k] != (Edges()[k'].1, Edges()[k'].0)
  {
    CubeEdges();
    TipEdges();
    if k' < 12 {
      CubeEdgesDistinct();
    } else if 12 <= k {
      TipEdgesDistinct();
    }
  }
}

=== FILE: utf8.dfy ===
/** Three-byte UTF-8 sequences, as the frame encoder writes them for the
    glyphs of the Unicode Braille Patterns block (U+2800..U+28FF). */
module Utf8 {

  datatype Option<T> = None | Some(value: T)

  /** A code point that UTF-8 writes as exactly three bytes and that is a
      Unicode scalar value (not a surrogate). */
  predicate IsThreeByteScalar(cp: bv32)
  {
    0x800 <= cp <= 0xFFFF && !(0xD800 <= cp <= 0xDFFF)
  }

  /** The encoder's byte arithmetic: a lead byte 1110xxxx carrying bits
      15..12, then two continuation bytes 10xxxxxx carrying bits 11..6 and
      5..0. */
  function Encode3(cp: bv32): (r: seq<bv8>)
    requires 0x800 <= cp <= 0xFFFF
    ensures |r| == 3
    ensures r[0] & 0xF0 == 0xE0 && r[1] & 0xC0 == 0x80 && r[2] & 0xC0 == 0x80
  {
    [(0xE0 | (cp >> 12)) as bv8,
     (0x80 | ((cp >> 6) & 0x3F)) as bv8,
     (0x80 | (cp & 0x3F)) as bv8]
  }

  /** A strict decoder for one three-byte sequence: it refuses a wrong lead
      or continuation byte, an overlong form and a surrogate. */
  function Decode3(bs: seq<bv8>): (r: Option<bv32>)
    ensures r.Some? ==> |bs| == 3 && IsThreeByteScalar(r.value)
  {
    if |bs| != 3 || bs[0] & 0xF0 != 0xE0 || bs[1] & 0xC0 != 0x80 || bs[2] & 0xC0 != 0x80 then None
    else
      var cp := ((bs[0] & 0x0F) as bv32 << 12) | ((bs[1] & 0x3F) as bv32 << 6) | (bs[2] & 0x3F) as bv32;
      if IsThreeByteScalar(cp) then Some(cp) else None
  }

  /** Every three-byte scalar value survives encoding and decoding. */
  lemma DecodeEncode(cp: bv32)
    requires IsThreeByteScalar(cp)
    ensures Decode3(Encode3(cp)) == Some(cp)
  {
  }

  /** Decoding accepts only the canonical encoding: whatever it accepts is
      exactly what Encode3 produces for the decoded value. */
  lemma EncodeDecode(bs: seq<bv8>)
    requires Decode3(bs).Some?
    ensures Encode3(Decode3(bs).value) == bs
  {
  }

  /** The code point of the braille glyph for a cell byte. */
  function BrailleCodePoint(b: bv8): (cp: bv32)
    ensures 0x2800 <= cp <= 0x28FF && IsThreeByteScalar(cp)
  {
    0x2800 + b as bv32
  }

  /** The glyph of cell byte b is the well-formed sequence
      E2, A0|(b>>6), 80|(b&3F), and it decodes back to U+2800+b. */
  lemma BrailleBytes(b: bv8)
    ensures Encode3(BrailleCodePoint(b)) == [0xE2, 0xA0 | (b >> 6), 0x80 | (b & 0x3F)]
    ensures Decode3(Encode3(BrailleCodePoint(b))) == Some(BrailleCodePoint(b))
  {
    DecodeEncode(BrailleCodePoint(b));
  }
}
